=== FILE: README.md ===
# manga-novels-feed, modelled in Dafny

This project models the feed-building core of manga-novels-feed. The system turns the episode
listings of several Japanese publisher sites into RSS 2.0 feeds. Each site has a *provider*. A
provider class registers itself under the site's domain name. Its `rss(id)` fetches the work's index
page or JSON API, picks out the candidate episode entries, and builds a channel plus one item per
entry it keeps. It can also raise a `Redirect` instead. The Magnet Novels handler does the same for
one site, from two JSON API responses.

The model is functional:

- Parsed pages and JSON responses are immutable datatypes. A JSON key is
  `Field<T> = Absent | Null | Present(v)`, because the code treats `hash.fetch(key)` and
  `hash[key]` differently.
- Each provider's `rss` is a pure function. It returns an `Outcome`: a `Document`, a `Redirect`, or
  the Ruby exception the code would raise (`Raised`).
- The `each` loop over candidates is `Feed.Collect` over a sequence of per-entry `Step`s. A step
  skips (`next`), emits an item, or raises.
- The two regular expressions that read dates are scanners over `seq<char>`. Each has a
  declarative reading of where its groups may lie. The proofs show the scanner returns the match
  Ruby's leftmost, greedy matcher reports.
- The collaborators whose code is not part of this model are fields of `Runtime.Env`. They are
  relative-URI resolution, `Time.parse`, `Time.strptime` and the UTC offset `Time.new` uses when
  given none.
- HTTP fetches are functions from the requested URL to the parsed document, or to the exception
  the request raised.
- Three helpers of `Runtime` map Ruby's failure modes to exceptions. `ResolveHref` and
  `TimeParse` carry no rows of their own: the step contracts that use them state what they do.
  `ResolveHref` is `index_uri + href`: a missing href raises `ArgumentError`, and one the URI
  library refuses raises `InvalidURIError`.
  `TimeParse` is `Time.parse`: nil and other non-strings raise `TypeError`, and unreadable text
  raises `ArgumentError`. `TimeNew` is `Time.new(y, m, d)` at midnight. It reads the month into 4
  bits and then the day into 5. A value outside a C `int` raises `RangeError`, a value too wide
  for its bits raises `ArgumentError`, and a month outside 1..12 or a day outside 1..31 then
  raises `ArgumentError`.
- `URI.encode_www_form_component` (`u`) is `FormEncoding.Encode`. It follows the
  application/x-www-form-urlencoded serializer of section 5.2 of the WHATWG URL Standard over the
  UTF-8 bytes of the string. No property of it is proved.

Modules: `Wrappers`, `Text` (Ruby string semantics), `FormEncoding`, `Runtime`, `Feed`, `DateScan`,
one module per provider (`Storia`, `GanganOnline`, `UraSunday`, `WebAce`, `ComicWalker`),
`Providers` (the registry and the lookup-then-`rss` composition), and `MagnetNovels` (the Lambda
handler).

Three behaviours of the code worth knowing:

- Titles joined from fragments drop only `nil` fragments (`compact`). Empty ones are kept, so a
  `nil`-free pair `""`, `"x"` gives `" x"`.
- A missing `latestEpisodes` raises `NoMethodError`, not a key error.
- A `charge` entry of UraSunday is left out by the CSS selector itself.

## Model

| member | source | states |
|---|---|---|
| Providers.Register | functions/lib/manga_novel_feeds.rb:32-34 | registering puts the provider under the id and leaves every other id as it was |
| Providers.Find | functions/lib/manga_novel_feeds.rb:23-25 | lookup fails with `KeyError(id)` exactly when the id was never registered, and otherwise yields the registered provider |
| Providers.FindReturnsLastRegistration | functions/lib/manga_novel_feeds.rb:19-34 | after any sequence of registrations, `find(id)` gives the provider of the last registration under `id` (read from the end), so later registrations overwrite earlier ones |
| Providers.FiveDistinctIds | functions/lib/manga_novel_feeds.rb:52 | the five `provider_id` declarations (lines 52, 90, 125, 158, 167) use five distinct ids, the registry holds five entries, and each id finds its own provider |
| Providers.UnknownIdRaises | functions/lib/manga_novel_feeds.rb:23-25 | an id none of the five classes declared fails with `KeyError` |
| Providers.Rss | functions/lib/manga_novel_feeds.rb:54 | each provider class runs its own `rss` (lines 54, 92, 127, 160, 169) on the documents of its own site; only WebAce redirects, and every document built is well formed |
| Providers.FetchFeed | functions/lib/manga_novel_feeds.rb:19-34 | lookup then `rss`: an unknown site raises `KeyError`, only `web-ace.jp` can redirect, and every document built has do_sort set and permalink guids |
| Providers.DeclaredSiteRunsItsProvider | functions/lib/manga_novel_feeds.rb:19-34 | looking up any of the five declared sites and calling `rss` runs the `rss` of the class that declared it: Storia, GanganOnline, UraSunday, WebAce or ComicWalker |
| Providers.WebAceNeverFetches | functions/lib/manga_novel_feeds.rb:157-164 | for `web-ace.jp` the outcome is always a redirect and is the same whatever any fetch would return |
| Providers.UnknownSiteNeverFetches | functions/lib/manga_novel_feeds.rb:23-25 | an unknown site raises `KeyError` and no provider's fetch influences the outcome |
| Feed.NewItem | functions/lib/manga_novel_feeds.rb:69-75 | every item built has a guid equal to its link with `isPermaLink` true |
| Feed.Collect | functions/lib/manga_novel_feeds.rb:65-76 | the `each` loop fails exactly when some entry raises, with the exception of the first such entry; otherwise it lists exactly the emitted items, in source order, each at the position counting the emitting entries before it |
| Feed.Make | functions/lib/manga_novel_feeds.rb:58-77 | `RSS::Maker.make` keeps the channel and yields either the first raised exception or a document with do_sort set, permalink guids and exactly the emitted items |
| Text.Strip | functions/lib/manga_novel_feeds.rb:71 | `strip` yields a slice of the text that neither starts nor ends with whitespace or NUL, with only such characters around it, and is empty only for all-whitespace text |
| Text.StripIdempotent | functions/lib/manga_novel_feeds.rb:71 | stripping twice gives the same as stripping once |
| Text.DecimalRoundTrip | functions/lib/manga_novel_feeds.rb:84 | `to_i` of the digits `to_s` writes for a natural number gives the number back |
| Text.IntegerString | functions/lib/manga_novel_feeds.rb:110 | `to_s` of an integer is its canonical decimal digits (no leading zero unless the number is 0), after a minus sign when negative, reading back to the number |
| Runtime.FetchKey | functions/lib/manga_novel_feeds.rb:174-189 | `fetch` raises `KeyError(key)` exactly when the key is missing, and whenever it does not raise it agrees with `[]` |
| Runtime.UnsignedBits | functions/lib/manga_novel_feeds.rb:84 | reading a `Time.new` field succeeds exactly for a value that fits its unsigned bits, and otherwise raises `RangeError` exactly when the value is outside a C `int` and `ArgumentError` else |
| Runtime.TimeNew | functions/lib/manga_novel_feeds.rb:84 | `Time.new(y, m, d)` gives midnight of that date exactly when the month is in 1..12 and the day in 1..31; it raises `RangeError` exactly for a month outside a C `int` or, with a month in 0..15, a day outside one, and `ArgumentError` otherwise |
| Runtime.Or | functions/lambda/app.rb:49 | the or-operator always gives one of its two operands: `a` when `a` is truthy, else `b`; the result is truthy exactly when either operand is |
| DateScan.DigitRunEnd | functions/lib/manga_novel_feeds.rb:83 | a `\d+` run ends at the first non-digit (or the end), with only ASCII digits before it |
| DateScan.KanjiAt | functions/lib/manga_novel_feeds.rb:83 | any span it reports at a start is a match of the Storia date pattern there |
| DateScan.KanjiAtComplete | functions/lib/manga_novel_feeds.rb:83 | at a given start the Storia pattern has at most one match, and the scanner finds it |
| DateScan.Leftmost | functions/lib/manga_novel_feeds.rb:83 | the unanchored search of `=~` returns a start within the range at which the pattern matches |
| DateScan.LeftmostSkips | functions/lib/manga_novel_feeds.rb:83 | no start the search passes over matches: every start before the returned one, or every start in range when it returns none |
| DateScan.MatchKanjiDate | functions/lib/manga_novel_feeds.rb:83 | `=~` gives no match exactly when no span of the text matches, and otherwise the year, month and day digit runs of the leftmost match |
| DateScan.LeftmostYearIsWholeRun | functions/lib/manga_novel_feeds.rb:83 | in the leftmost match the year is the whole digit run before 年: no digit precedes it |
| DateScan.DottedAtComplete | functions/lib/manga_novel_feeds.rb:107 | every match of the dotted pattern at a start has the year and month the scanner finds, and a day no longer than the scanner's |
| DateScan.MatchDottedDate | functions/lib/manga_novel_feeds.rb:107 | `=~` gives no match exactly when no span matches, and otherwise the groups of the leftmost match, with the greedy day group as long as any match there allows |
| Storia.ExtractDate | functions/lib/manga_novel_feeds.rb:82-86 | nil exactly when the text has no `N年 M月 D日` match (whitespace allowed after 年 and 月), otherwise `Time.new` at +09:00 of the decimal values of the leftmost match's groups: `RangeError` for a month, or a day after a month below 16, outside a C `int`, `ArgumentError` for any other month or day out of range, else that midnight |
| Storia.EpisodeStep | functions/lib/manga_novel_feeds.rb:65-75 | a node is skipped exactly when it has no enclosing `<a>` or its 公開日 text has no date; a kept node raises for an out-of-range date, then for an unresolvable href, and otherwise its item has the stripped node text as title, the extracted date and the resolved href as link |
| Storia.Rss | functions/lib/manga_novel_feeds.rb:54-78 | never redirects; a failed fetch raises; once the page is read, it raises exactly when some node's step raises and builds a document otherwise, with the page title, the index URL and the story text as channel and exactly the items of the kept nodes |
| Storia.StepsRaiseOnRaisingNodes | functions/lib/manga_novel_feeds.rb:65-70 | a node's step raises exactly when the node has a link and a date and either `Time.new` refuses the date or the href cannot be resolved |
| Storia.BuiltUnlessNodeRaises | functions/lib/manga_novel_feeds.rb:54-78 | once the index page is read, the feed fails exactly when some linked, dated node has a refused date or an unresolvable href, and is built otherwise |
| Storia.ItemsAreListedEpisodes | functions/lib/manga_novel_feeds.rb:65-67 | in a built feed an item comes from a node exactly when the node has an `<a>` and a date, so skipped nodes do not stop the rest |
| Storia.UnresolvableLinkRaises | functions/lib/manga_novel_feeds.rb:70 | a kept node with a valid date whose href is missing or unresolvable fails the whole feed |
| Storia.OutOfRangeDateRaises | functions/lib/manga_novel_feeds.rb:66 | a linked node whose date has a month or day `Time.new` refuses fails the whole feed |
| GanganOnline.ChapterTitle | functions/lib/manga_novel_feeds.rb:109 | the title is `mainText` and `subText` joined by one space, with only nil fragments dropped |
| GanganOnline.PublishedAt | functions/lib/manga_novel_feeds.rb:107-108 | nil exactly when `publishingPeriod` is nil or has no dotted triple, otherwise `Time.new` at the local UTC offset of the decimal values of the leftmost triple's groups, the day being the whole digit run: `RangeError` for a month, or a day after a month below 16, outside a C `int`, `ArgumentError` for any other month or day out of range, else that midnight |
| GanganOnline.ChapterStep | functions/lib/manga_novel_feeds.rb:106-118 | a chapter is skipped exactly when it has no dotted date, raises only with the exception `Time.new` raises for an out-of-range date, and otherwise yields the joined title, that date and the `/title/<u id>/chapter/<u chapter id>` link |
| GanganOnline.Rss | functions/lib/manga_novel_feeds.rb:92-121 | a missing `#__NEXT_DATA__` raises `NoMethodError`, unparsable JSON raises a parser error; a document has the page title, index URL and `description` as channel and exactly the items of the dated chapters; once the chapter list is read, it raises exactly when some chapter's step raises |
| GanganOnline.ChapterFailureIsBadDate | functions/lib/manga_novel_feeds.rb:106-119 | once the chapter list is read, the feed raises exactly when some chapter's dotted date has a month or day `Time.new` refuses, and is built otherwise |
| GanganOnline.StepsRaiseOnRefusedDates | functions/lib/manga_novel_feeds.rb:107-108 | a chapter's step raises exactly when `Time.new` refuses its dotted date |
| GanganOnline.ItemsAreDatedChapters | functions/lib/manga_novel_feeds.rb:106-107 | in a built feed no chapter raised, and a chapter gives an item exactly when its `publishingPeriod` has a dotted triple |
| UraSunday.Qualifying | functions/lib/manga_novel_feeds.rb:140 | `div > div:not(.new)` keeps only divs without class `new` and every such div; a single div is kept exactly when it is not `new` |
| UraSunday.QualifyingConcat | functions/lib/manga_novel_feeds.rb:140 | the selection of a concatenation is the concatenation of the selections, so the kept divs are the non-`new` ones in document order, each as often as it occurs |
| UraSunday.EntryStep | functions/lib/manga_novel_feeds.rb:138-151 | a `charge` entry is left out; any other entry raises `NoMethodError` without a link, the structure `RuntimeError` without exactly three qualifying divs, `ArgumentError` when the third div cannot be read as `%Y/%m/%d` at +0900, the resolver's exception for a bad href, and otherwise gives an item whose title is the first two divs joined by a space, whose date is that reading and whose link is the resolved href |
| UraSunday.Rss | functions/lib/manga_novel_feeds.rb:127-154 | a missing description meta raises `NoMethodError`; once the meta is read, it raises exactly when some entry's step raises and builds a document otherwise, with the meta content as description and exactly the items of the entries outside `charge` |
| UraSunday.StepsRaiseOnRaisingEntries | functions/lib/manga_novel_feeds.rb:138-151 | an entry's step raises exactly when it is outside `charge` and has no link, a misshapen link, an unreadable date or an unresolvable href |
| UraSunday.BuiltUnlessEntryRaises | functions/lib/manga_novel_feeds.rb:127-154 | once the title page and its meta are read, the feed fails exactly when some entry outside `charge` raises, and is built otherwise |
| UraSunday.MisshapenEntryFailsFeed | functions/lib/manga_novel_feeds.rb:141 | one entry outside `charge` with a qualifying-div count other than 3 makes the whole feed fail |
| UraSunday.NoPartialFeed | functions/lib/manga_novel_feeds.rb:138-152 | a built feed means every entry outside `charge` was well shaped and gave one item |
| WebAce.SplitOnce | functions/lib/manga_novel_feeds.rb:161 | `split(':', 2)` gives no fields for an empty id, the id alone without a colon, and otherwise the parts before and after the first colon only |
| WebAce.SplitOnceRejoins | functions/lib/manga_novel_feeds.rb:161 | joining the two fields with `:` gives the id back, and the first field has no colon |
| WebAce.SplitOnceOfJoined | functions/lib/manga_novel_feeds.rb:161 | splitting `sub:rest` gives `sub` and `rest` back for any colon-free `sub`, whatever colons `rest` holds |
| WebAce.Rss | functions/lib/manga_novel_feeds.rb:160-163 | always a redirect to `https://web-ace.jp/<u sub>/feed/rss/<u rest>/`, split at the first colon, with an empty work part when the id has no colon |
| ComicWalker.EpisodeStep | functions/lib/manga_novel_feeds.rb:184-193 | a missing `isActive` raises `KeyError`; a false or nil one skips; an active episode raises `KeyError` for the first of `code`, `title`, `updateDate` it misses, then the exception of `Time.parse` on `updateDate`, and otherwise gives the item with the `?episodeType=first` link, the title and the parsed update date |
| ComicWalker.Rss | functions/lib/manga_novel_feeds.rb:169-171 | never redirects; a failed request raises its exception, and a response is read by `ComicWalker.FromResponse` |
| ComicWalker.FromResponse | functions/lib/manga_novel_feeds.rb:171-196 | missing `work`, `title`, `summary` or `result` keys raise `KeyError`, a non-JSON body raises a parser error; once the episode list is read, it raises exactly when some episode's step raises and builds a document otherwise, with the work title, detail URL and summary as channel and exactly the items of the active episodes |
| ComicWalker.StepsRaiseOnRaisingEpisodes | functions/lib/manga_novel_feeds.rb:184-193 | an episode's step raises exactly when it misses `isActive`, or is active and misses an item key or has an `updateDate` `Time.parse` refuses |
| ComicWalker.BuiltUnlessEpisodeRaises | functions/lib/manga_novel_feeds.rb:169-196 | once the episode list is read, the call fails exactly when some episode raises, and the feed is built otherwise |
| ComicWalker.ItemsAreActiveEpisodes | functions/lib/manga_novel_feeds.rb:184-185 | in a built feed an episode gives an item exactly when its `isActive` is truthy |
| ComicWalker.MissingEpisodeKeyFails | functions/lib/manga_novel_feeds.rb:185-190 | an episode missing `isActive`, or an active one missing `code`, `title` or `updateDate`, fails the whole call |
| MagnetNovels.PublishedAt | functions/lambda/app.rb:49 | the date is read from `public_time`, and from `latest_public_time` only when `public_time` is nil or false |
| MagnetNovels.SectionStep | functions/lambda/app.rb:45-52 | a section is never skipped, raises only when its date cannot be read, and otherwise gives the `/novels/<novel id>/episodes/<section id>` link, its title and its date, with the link as permalink guid |
| MagnetNovels.Handler | functions/lambda/app.rb:12-63 | missing path parameters or `novelId`, a failed request (the novel info's first) and a response without `data` raise; once both responses carry `data` it fails exactly when some section's step raises, so there is no partial feed; a response has status 200, content type `application/rdf+xml`, the name and synopsis as channel, the novel URL as link, and the items of the sections in the order they are handed to the maker |
| MagnetNovels.FailsOnUnreadableDate | functions/lambda/app.rb:45-53 | once both responses carry `data`, the handler fails exactly when `Time.parse` cannot read some section's `public_time` or `latest_public_time` fallback |
| MagnetNovels.OneItemPerSection | functions/lambda/app.rb:12-63 | with the novel id present, both responses carrying `data` and every section's date readable, the handler answers, with as many items as there are sections and the item of section `i` at position `i` |

## Left out

- HTTP: `http_get`, the User-Agent header and `Net::HTTP.post` are not modelled. A fetch is a
  function from the requested URL to the parsed document or the exception it raised.
- Threads: the two request threads of the handler are not modelled. Their values are inputs,
  awaited in the order the handler awaits them.
- HTML and JSON parsing: Nokogiri selection and `JSON.parse` are foreign libraries. Their results
  are pre-extracted records. JSON values of an unexpected type are outside the model, for example
  a non-object where an object is read, a non-string title, or `dig` through a non-Hash.
- Rendering: `RSS::Maker` rendering, its date ordering under `do_sort`, and its own checks (such
  as a nil channel title) are not modelled. The model keeps nil channel fields as nil and records
  that `do_sort` is set.
- Time: `Time.parse`, `Time.strptime` and the local UTC offset are parameters of `Runtime.Env`.
- Time zones: `Time.new` without an offset uses the process time zone. `Env.localOffset` is one
  fixed offset, so a zone whose offset changes with daylight saving time is not modelled.
- Storia.ExtractDate: `Time.new`'s range check is modelled, but a day in 29..31 past the end of a
  shorter month is kept as given. Ruby rolls it over into the next month, for example
  February 30 becomes March 2, and that normalisation is not modelled.
- GanganOnline.PublishedAt: the same day roll-over is not modelled, as for Storia.
- Relative links: `index_uri + href` (section 5.2 of RFC 3986) is the abstract `Env.resolve`.
- `u`: `FormEncoding.Encode` is concrete, but nothing is proved about it.
- The caller that looks a provider up and relays a `Redirect` is not part of this model.
  `Providers.FetchFeed` composes `find` with `rss` as that caller would.
- The handler's `ENV['TZ'] = 'UTC'` setting only affects `Time.parse`, which is abstract here.

=== FILE: comic_walker.dfy ===
/**
 * The ComicWalker provider (`comic-walker.com`): reads the site's JSON work
 * API instead of a page. Every episode flagged active becomes an item; a
 * missing key raises `KeyError` from `Hash#fetch`.
 */
module ComicWalker {
  import opened Wrappers
  import opened Runtime
  import opened Feed
  import FormEncoding

  /** One element of `latestEpisodes.result`. */
  datatype Episode = Episode(isActive: Field<Scalar>, code: Field<Scalar>, title: Field<string>,
                             updateDate: Field<Scalar>)

  datatype EpisodeList = EpisodeList(result: Field<seq<Episode>>)

  datatype Work = Work(title: Field<string>, summary: Field<string>)

  /** The API response: not JSON, or an object with (possibly) `work` and `latestEpisodes`. */
  datatype Body = NotJson | Json(work: Field<Work>, latestEpisodes: Field<EpisodeList>)

  function ApiUrl(id: string): string {
    "https://comic-walker.com/api/contents/details/work?workCode=" + FormEncoding.Encode(id)
  }

  function DetailUrl(id: string): string {
    "https://comic-walker.com/detail/" + FormEncoding.Encode(id)
  }

  function EpisodeUrl(id: string, code: Option<Scalar>): string {
    DetailUrl(id) + "/episodes/" + FormEncoding.Encode(ToS(code)) + "?episodeType=first"
  }

  /** The episode is listed: `ep.fetch('isActive')` is neither `nil` nor `false`. */
  predicate Active(ep: Episode) {
    ep.isActive.Present? && Truthy(Some(ep.isActive.value))
  }

  /** A key of an active episode that the item block fetches is missing. */
  predicate MissesItemKey(ep: Episode) {
    ep.code.Absent? || ep.title.Absent? || ep.updateDate.Absent?
  }

  /**
   * One iteration over `result`: the keys are fetched in the order `isActive`,
   * `code`, `title`, `updateDate`, and the first missing one raises.
   */
  function EpisodeStep(env: Env, id: string, ep: Episode): (st: Step)
    ensures st.Skip? <==> !ep.isActive.Absent? && !Active(ep)
    ensures ep.isActive.Absent? ==> st == Abort(KeyError("isActive"))
    ensures Active(ep) && ep.code.Absent? ==> st == Abort(KeyError("code"))
    ensures Active(ep) && !ep.code.Absent? && ep.title.Absent? ==> st == Abort(KeyError("title"))
    ensures Active(ep) && !ep.code.Absent? && !ep.title.Absent? && ep.updateDate.Absent? ==>
              st == Abort(KeyError("updateDate"))
    ensures Active(ep) && !MissesItemKey(ep) ==>
      var date := TimeParse(env, Index(ep.updateDate));
      && (date.Failure? ==> st == Abort(date.error))
      && (date.Success? ==> st.Emit?)
    ensures st.Emit? ==>
      && Active(ep) && !MissesItemKey(ep)
      && PermaLinked(st.item)
      && st.item.link == EpisodeUrl(id, Index(ep.code))
      && st.item.title == Index(ep.title)
      && TimeParse(env, Index(ep.updateDate)) == Success(st.item.date)
  {
    match FetchKey(ep.isActive, "isActive")
    case Failure(e) => Abort(e)
    case Success(active) =>
      if !Truthy(active) then Skip
      else match FetchKey(ep.code, "code")
        case Failure(e) => Abort(e)
        case Success(code) =>
          var url := EpisodeUrl(id, code);
          match FetchKey(ep.title, "title")
          case Failure(e) => Abort(e)
          case Success(title) =>
            match FetchKey(ep.updateDate, "updateDate")
            case Failure(e) => Abort(e)
            case Success(updated) =>
              match TimeParse(env, updated)
              case Failure(e) => Abort(e)
              case Success(date) => Emit(NewItem(title, url, date))
  }

  /**
   * An episode that raises: it has no `isActive` key, or it is active and
   * misses an item key or has an `updateDate` `Time.parse` refuses.
   */
  predicate EpisodeRaises(env: Env, ep: Episode) {
    || ep.isActive.Absent?
    || (Active(ep) && (MissesItemKey(ep) || TimeParse(env, Index(ep.updateDate)).Failure?))
  }

  function Steps(env: Env, id: string, episodes: seq<Episode>): seq<Step> {
    StepsOf(episode => EpisodeStep(env, id, episode), episodes)
  }

  /**
   * The response got as far as the episode list: it is JSON, `work` is an
   * object with `title` and `summary` keys, and `latestEpisodes.result` is
   * a list.
   */
  predicate EpisodesRead(json: Body) {
    && json.Json? && json.work.Present? && !json.work.value.title.Absent? && !json.work.value.summary.Absent?
    && json.latestEpisodes.Present? && json.latestEpisodes.value.result.Present?
  }

  /** What `ComicWalker#rss(id)` does with the body of the API response. */
  function FromResponse(env: Env, id: string, json: Body): (r: Outcome)
    ensures !r.Redirect?
    ensures json == NotJson ==> r == Raised(ParserError)
    ensures json.Json? ==>
      && (json.work.Absent? ==> r == Raised(KeyError("work")))
      && (json.work.Present? && json.work.value.title.Absent? ==> r == Raised(KeyError("title")))
      && (json.work.Present? && !json.work.value.title.Absent? && json.work.value.summary.Absent? ==>
            r == Raised(KeyError("summary")))
      && (json.work.Present? && !json.work.value.title.Absent? && !json.work.value.summary.Absent?
          && json.latestEpisodes.Present? && json.latestEpisodes.value.result.Absent? ==>
            r == Raised(KeyError("result")))
    ensures r.Document? ==>
      && json.Json? && json.work.Present? && json.latestEpisodes.Present?
      && json.latestEpisodes.value.result.Present?
      && r.feed.channel == Channel(Index(json.work.value.title), DetailUrl(id), Index(json.work.value.summary))
      && WellFormed(r.feed)
      && Lists(Steps(env, id, json.latestEpisodes.value.result.value), r.feed.items)
    ensures EpisodesRead(json) ==>
      var steps := Steps(env, id, json.latestEpisodes.value.result.value);
      && (r.Document? || r.Raised?)
      && (r.Raised? <==> exists i :: 0 <= i < |steps| && steps[i].Abort?)
  {
    match json
    case NotJson => Raised(ParserError)
    case Json(_, _) =>
      match FetchKey(json.work, "work")
      case Failure(e) => Raised(e)
      case Success(None) => Raised(NoMethodError)
      case Success(Some(work)) =>
        match FetchKey(work.title, "title")
        case Failure(e) => Raised(e)
        case Success(title) =>
          match FetchKey(work.summary, "summary")
          case Failure(e) => Raised(e)
          case Success(summary) =>
            match Index(json.latestEpisodes)
            case None => Raised(NoMethodError)
            case Some(latest) =>
              match FetchKey(latest.result, "result")
              case Failure(e) => Raised(e)
              case Success(None) => Raised(NoMethodError)
              case Success(Some(episodes)) =>
                Make(Channel(title, DetailUrl(id), summary), Steps(env, id, episodes))
  }

  /** `ComicWalker#rss(id)`: a failed request raises, and a response is read as above. */
  function Rss(env: Env, fetch: string -> Fetch<Body>, id: string): (r: Outcome)
    ensures !r.Redirect?
    ensures fetch(ApiUrl(id)).FetchFailed? ==> r == Raised(fetch(ApiUrl(id)).error)
    ensures fetch(ApiUrl(id)).Fetched? ==> r == FromResponse(env, id, fetch(ApiUrl(id)).doc)
  {
    match fetch(ApiUrl(id))
    case FetchFailed(e) => Raised(e)
    case Fetched(json) => FromResponse(env, id, json)
  }

  /** The built feed lists exactly the active episodes, one item each, in source order. */
  lemma ItemsAreActiveEpisodes(env: Env, fetch: string -> Fetch<Body>, id: string)
    requires Rss(env, fetch, id).Document?
    ensures var episodes := fetch(ApiUrl(id)).doc.latestEpisodes.value.result.value;
            var steps := Steps(env, id, episodes);
            && (forall i :: 0 <= i < |episodes| ==> (steps[i].Emit? <==> Active(episodes[i])))
            && |Rss(env, fetch, id).feed.items| == EmitCount(steps, |steps|)
  {
    var episodes := fetch(ApiUrl(id)).doc.latestEpisodes.value.result.value;
    var steps := Steps(env, id, episodes);
    assert forall i :: 0 <= i < |steps| ==> !steps[i].Abort?;
  }

  /** An episode's step raises exactly when the episode raises. */
  lemma StepsRaiseOnRaisingEpisodes(env: Env, id: string, episodes: seq<Episode>)
    ensures forall i :: 0 <= i < |episodes| ==>
              (Steps(env, id, episodes)[i].Abort? <==> EpisodeRaises(env, episodes[i]))
  {
    var steps := Steps(env, id, episodes);
    forall i | 0 <= i < |episodes|
      ensures steps[i].Abort? <==> EpisodeRaises(env, episodes[i])
    {
      assert steps[i] == EpisodeStep(env, id, episodes[i]);
    }
  }

  /**
   * Once the episode list is read, the call fails exactly when some episode
   * raises, and the feed is built otherwise.
   */
  lemma BuiltUnlessEpisodeRaises(env: Env, fetch: string -> Fetch<Body>, id: string)
    requires fetch(ApiUrl(id)).Fetched? && EpisodesRead(fetch(ApiUrl(id)).doc)
    ensures var episodes := fetch(ApiUrl(id)).doc.latestEpisodes.value.result.value;
            && (Rss(env, fetch, id).Document? || Rss(env, fetch, id).Raised?)
            && (Rss(env, fetch, id).Raised? <==> exists i :: 0 <= i < |episodes| && EpisodeRaises(env, episodes[i]))
  {
    StepsRaiseOnRaisingEpisodes(env, id, fetch(ApiUrl(id)).doc.latestEpisodes.value.result.value);
  }

  /** An active episode missing `code`, `title` or `updateDate`, or any episode missing `isActive`, fails the call. */
  lemma MissingEpisodeKeyFails(env: Env, fetch: string -> Fetch<Body>, id: string, i: int)
    requires fetch(ApiUrl(id)).Fetched?
    requires var json := fetch(ApiUrl(id)).doc;
             json.Json? && json.work.Present? && json.latestEpisodes.Present?
             && json.latestEpisodes.value.result.Present?
             && 0 <= i < |json.latestEpisodes.value.result.value|
             && var ep := json.latestEpisodes.value.result.value[i];
                ep.isActive.Absent? || (Active(ep) && MissesItemKey(ep))
    ensures Rss(env, fetch, id).Raised?
  {
    var episodes := fetch(ApiUrl(id)).doc.latestEpisodes.value.result.value;
    var steps := Steps(env, id, episodes);
    assert steps[i].Abort?;
  }
}

=== FILE: date_scan.dfy ===
/**
 * The two date grammars, as the unanchored Ruby regular expressions that
 * read them: Storia's `(\d+)年\s*(\d+)月\s*(\d+)日` and GanganOnline's
 * `(\d+)\.(\d+)\.(\d+)`. Each grammar has a declarative reading (where the
 * groups of a match may lie in the text) and a scanner; the lemmas show the
 * scanner finds the match Ruby's leftmost, greedy matcher reports.
 */
module DateScan {
  import opened Wrappers
  import opened Text

  const Nen: char := '\U{5E74}'    // 年, year
  const Gatsu: char := '\U{6708}'  // 月, month
  const Nichi: char := '\U{65E5}'  // 日, day

  /**
   * The search of an unanchored match: the first start from `i` up to `n`
   * at which `at` reports a match, with what it reports there.
   */
  function Leftmost<T>(at: nat -> Option<T>, i: nat, n: nat): (r: Option<(nat, T)>)
    requires i <= n
    ensures r.Some? ==> i <= r.value.0 <= n && at(r.value.0) == Some(r.value.1)
    decreases n - i
  {
    match at(i)
    case Some(x) => Some((i, x))
    case None => if i == n then None else Leftmost(at, i + 1, n)
  }

  /** No start the search passes over matches: neither those before its result nor, when it finds none, any up to `n`. */
  lemma {:induction false} LeftmostSkips<T>(at: nat -> Option<T>, i: nat, n: nat, st: nat)
    requires i <= st <= n
    requires Leftmost(at, i, n).None? || st < Leftmost(at, i, n).value.0
    ensures at(st).None?
    decreases n - i
  {
    if st > i {
      LeftmostSkips(at, i + 1, n, st);
    }
  }

  /** Every character of `s[i..j]` is a `\d`. */
  predicate DigitsIn(s: string, i: int, j: int)
    requires 0 <= i <= j <= |s|
  {
    forall k :: i <= k < j ==> IsDigit(s[k])
  }

  /** Every character of `s[i..j]` is a `\s`. */
  predicate SpacesIn(s: string, i: int, j: int)
    requires 0 <= i <= j <= |s|
  {
    forall k :: i <= k < j ==> IsSpace(s[k])
  }

  /** The end of the longest run of digits starting at `i`. */
  function DigitRunEnd(s: string, i: nat): (j: nat)
    requires i <= |s|
    ensures i <= j <= |s| && DigitsIn(s, i, j)
    ensures j == |s| || !IsDigit(s[j])
    decreases |s| - i
  {
    if i < |s| && IsDigit(s[i]) then DigitRunEnd(s, i + 1) else i
  }

  /** The end of the longest run of `\s` starting at `i`. */
  function SpaceRunEnd(s: string, i: nat): (j: nat)
    requires i <= |s|
    ensures i <= j <= |s| && SpacesIn(s, i, j)
    ensures j == |s| || !IsSpace(s[j])
    decreases |s| - i
  {
    if i < |s| && IsSpace(s[i]) then SpaceRunEnd(s, i + 1) else i
  }

  /** A digit run that stops before a non-digit (or the end) is the longest one. */
  lemma DigitRunUnique(s: string, i: nat, j: nat)
    requires i <= j <= |s| && DigitsIn(s, i, j)
    requires j == |s| || !IsDigit(s[j])
    ensures DigitRunEnd(s, i) == j
  {
  }

  /** A `\s` run that stops before a non-space (or the end) is the longest one. */
  lemma SpaceRunUnique(s: string, i: nat, j: nat)
    requires i <= j <= |s| && SpacesIn(s, i, j)
    requires j == |s| || !IsSpace(s[j])
    ensures SpaceRunEnd(s, i) == j
  {
  }

  // ---------------------------------------------------------------------
  // Storia: (\d+)年\s*(\d+)月\s*(\d+)日

  /**
   * The pattern matches at `st` with the year in `s[st..a]`, 年 at `a`,
   * the month in `s[b..c]`, 月 at `c`, the day in `s[e..f]` and 日 at `f`.
   */
  ghost predicate KanjiMatch(s: string, st: int, a: int, b: int, c: int, e: int, f: int) {
    && 0 <= st < a < |s| && DigitsIn(s, st, a) && s[a] == Nen
    && a + 1 <= b < c < |s| && SpacesIn(s, a + 1, b) && DigitsIn(s, b, c) && s[c] == Gatsu
    && c + 1 <= e < f < |s| && SpacesIn(s, c + 1, e) && DigitsIn(s, e, f) && s[f] == Nichi
  }

  /** Where the groups of a match lie: year end, month start and end, day start and end. */
  datatype KanjiSpan = KanjiSpan(a: nat, b: nat, c: nat, e: nat, f: nat)

  /** Attempts the pattern at `st`; every quantifier is followed by a different class, so no backtracking is needed. */
  function KanjiAt(s: string, st: nat): (r: Option<KanjiSpan>)
    requires st <= |s|
    ensures r.Some? ==> KanjiMatch(s, st, r.value.a, r.value.b, r.value.c, r.value.e, r.value.f)
  {
    var a := DigitRunEnd(s, st);
    if a == st || a == |s| || s[a] != Nen then None
    else
      var b := SpaceRunEnd(s, a + 1);
      var c := DigitRunEnd(s, b);
      if c == b || c == |s| || s[c] != Gatsu then None
      else
        var e := SpaceRunEnd(s, c + 1);
        var f := DigitRunEnd(s, e);
        if f == e || f == |s| || s[f] != Nichi then None
        else Some(KanjiSpan(a, b, c, e, f))
  }

  /** At a given start the match is unique, and `KanjiAt` finds it. */
  lemma {:induction false} KanjiAtComplete(s: string, st: int, a: int, b: int, c: int, e: int, f: int)
    requires KanjiMatch(s, st, a, b, c, e, f)
    ensures KanjiAt(s, st) == Some(KanjiSpan(a, b, c, e, f))
  {
    DigitRunUnique(s, st, a);
    SpaceRunUnique(s, a + 1, b);
    DigitRunUnique(s, b, c);
    SpaceRunUnique(s, c + 1, e);
    DigitRunUnique(s, e, f);
  }

  /** The pattern attempted at every start of the text; no start past the end matches. */
  function KanjiAttempt(s: string): nat -> Option<KanjiSpan> {
    (st: nat) => if st <= |s| then KanjiAt(s, st) else None
  }

  /** The leftmost start of a match of the pattern, with its groups. */
  function FindKanji(s: string): Option<(nat, KanjiSpan)> {
    Leftmost(KanjiAttempt(s), 0, |s|)
  }

  /** No match of the Storia pattern starts before `st`. */
  ghost predicate NoKanjiMatchBefore(s: string, st: int) {
    forall st', a, b, c, e, f :: st' < st ==> !KanjiMatch(s, st', a, b, c, e, f)
  }

  /**
   * `s =~ /(\d+)年\s*(\d+)月\s*(\d+)日/`: the year, month and day digit
   * runs of the leftmost match, or `None` when the text has no match.
   */
  function MatchKanjiDate(s: string): (r: Option<(string, string, string)>)
    ensures r.None? <==> forall st, a, b, c, e, f :: !KanjiMatch(s, st, a, b, c, e, f)
    ensures r.Some? ==> exists st, a, b, c, e, f ::
      && KanjiMatch(s, st, a, b, c, e, f) && NoKanjiMatchBefore(s, st)
      && r.value == (s[st..a], s[b..c], s[e..f])
    ensures r.Some? ==> AllDigits(r.value.0) && AllDigits(r.value.1) && AllDigits(r.value.2)
  {
    match FindKanji(s)
    case None =>
      KanjiNoneMeansNoMatch(s);
      None
    case Some((st, sp)) =>
      KanjiFoundIsLeftmost(s, st, sp);
      Some((s[st..sp.a], s[sp.b..sp.c], s[sp.e..sp.f]))
  }

  lemma KanjiNoneMeansNoMatch(s: string)
    requires FindKanji(s).None?
    ensures forall st, a, b, c, e, f :: !KanjiMatch(s, st, a, b, c, e, f)
  {
    forall st, a, b, c, e, f | KanjiMatch(s, st, a, b, c, e, f)
      ensures false
    {
      LeftmostSkips(KanjiAttempt(s), 0, |s|, st);
      KanjiAtComplete(s, st, a, b, c, e, f);
    }
  }

  lemma KanjiFoundIsLeftmost(s: string, st: nat, sp: KanjiSpan)
    requires FindKanji(s) == Some((st, sp))
    ensures KanjiMatch(s, st, sp.a, sp.b, sp.c, sp.e, sp.f) && NoKanjiMatchBefore(s, st)
    ensures AllDigits(s[st..sp.a]) && AllDigits(s[sp.b..sp.c]) && AllDigits(s[sp.e..sp.f])
  {
    forall st', a, b, c, e, f | st' < st && KanjiMatch(s, st', a, b, c, e, f)
      ensures false
    {
      LeftmostSkips(KanjiAttempt(s), 0, |s|, st');
      KanjiAtComplete(s, st', a, b, c, e, f);
    }
    DigitsSlice(s, st, sp.a);
    DigitsSlice(s, sp.b, sp.c);
    DigitsSlice(s, sp.e, sp.f);
  }

  /** A digit run of the text, taken out as a string, is all digits. */
  lemma DigitsSlice(s: string, i: int, j: int)
    requires 0 <= i <= j <= |s| && DigitsIn(s, i, j)
    ensures AllDigits(s[i..j])
  {
  }

  /** The year of the leftmost match is the whole digit run before 年, not a tail of it. */
  lemma {:induction false} LeftmostYearIsWholeRun(s: string, st: int, a: int, b: int, c: int, e: int, f: int)
    requires KanjiMatch(s, st, a, b, c, e, f) && NoKanjiMatchBefore(s, st)
    ensures st == 0 || !IsDigit(s[st - 1])
  {
    if st > 0 && IsDigit(s[st - 1]) {
      assert KanjiMatch(s, st - 1, a, b, c, e, f);
    }
  }

  // ---------------------------------------------------------------------
  // GanganOnline: (\d+)\.(\d+)\.(\d+)

  /**
   * The pattern matches at `st` with the year in `s[st..a]`, `.` at `a`,
   * the month in `s[a+1..b]`, `.` at `b` and the day in `s[b+1..e]`.
   */
  ghost predicate DottedMatch(s: string, st: int, a: int, b: int, e: int) {
    && 0 <= st < a < |s| && DigitsIn(s, st, a) && s[a] == '.'
    && a + 1 < b < |s| && DigitsIn(s, a + 1, b) && s[b] == '.'
    && b + 1 < e <= |s| && DigitsIn(s, b + 1, e)
  }

  datatype DottedSpan = DottedSpan(a: nat, b: nat, e: nat)

  /** Attempts the pattern at `st`; the final `\d+` is greedy and takes the whole digit run. */
  function DottedAt(s: string, st: nat): (r: Option<DottedSpan>)
    requires st <= |s|
    ensures r.Some? ==> DottedMatch(s, st, r.value.a, r.value.b, r.value.e)
    ensures r.Some? ==> r.value.e == |s| || !IsDigit(s[r.value.e])
  {
    var a := DigitRunEnd(s, st);
    if a == st || a == |s| || s[a] != '.' then None
    else
      var b := DigitRunEnd(s, a + 1);
      if b == a + 1 || b == |s| || s[b] != '.' then None
      else
        var e := DigitRunEnd(s, b + 1);
        if e == b + 1 then None else Some(DottedSpan(a, b, e))
  }

  /** Any match at `st` has the year and month `DottedAt` finds and a day no longer than its day. */
  lemma {:induction false} DottedAtComplete(s: string, st: int, a: int, b: int, e: int)
    requires DottedMatch(s, st, a, b, e)
    ensures DottedAt(s, st).Some?
    ensures DottedAt(s, st).value.a == a && DottedAt(s, st).value.b == b && e <= DottedAt(s, st).value.e
  {
    DigitRunUnique(s, st, a);
    DigitRunUnique(s, a + 1, b);
  }

  /** The pattern attempted at every start of the text; no start past the end matches. */
  function DottedAttempt(s: string): nat -> Option<DottedSpan> {
    (st: nat) => if st <= |s| then DottedAt(s, st) else None
  }

  /** The leftmost start of a match of the pattern, with its groups. */
  function FindDotted(s: string): Option<(nat, DottedSpan)> {
    Leftmost(DottedAttempt(s), 0, |s|)
  }

  ghost predicate NoDottedMatchBefore(s: string, st: int) {
    forall st', a, b, e :: st' < st ==> !DottedMatch(s, st', a, b, e)
  }

  /**
   * `s =~ /(\d+)\.(\d+)\.(\d+)/`: the three digit groups of the leftmost
   * match, with the greedy day group as long as any match at that start
   * allows; `None` when the text has no match.
   */
  function MatchDottedDate(s: string): (r: Option<(string, string, string)>)
    ensures r.None? <==> forall st, a, b, e :: !DottedMatch(s, st, a, b, e)
    ensures r.Some? ==> exists st, a, b, e ::
      && DottedMatch(s, st, a, b, e) && NoDottedMatchBefore(s, st)
      && (forall e' :: DottedMatch(s, st, a, b, e') ==> e' <= e)
      && r.value == (s[st..a], s[a + 1..b], s[b + 1..e])
    ensures r.Some? ==> AllDigits(r.value.0) && AllDigits(r.value.1) && AllDigits(r.value.2)
  {
    match FindDotted(s)
    case None =>
      DottedNoneMeansNoMatch(s);
      None
    case Some((st, sp)) =>
      DottedFoundIsLeftmost(s, st, sp);
      Some((s[st..sp.a], s[sp.a + 1..sp.b], s[sp.b + 1..sp.e]))
  }

  lemma DottedNoneMeansNoMatch(s: string)
    requires FindDotted(s).None?
    ensures forall st, a, b, e :: !DottedMatch(s, st, a, b, e)
  {
    forall st, a, b, e | DottedMatch(s, st, a, b, e)
      ensures false
    {
      LeftmostSkips(DottedAttempt(s), 0, |s|, st);
      DottedAtComplete(s, st, a, b, e);
    }
  }

  lemma DottedFoundIsLeftmost(s: string, st: nat, sp: DottedSpan)
    requires FindDotted(s) == Some((st, sp))
    ensures DottedMatch(s, st, sp.a, sp.b, sp.e) && NoDottedMatchBefore(s, st)
    ensures forall e' :: DottedMatch(s, st, sp.a, sp.b, e') ==> e' <= sp.e
    ensures AllDigits(s[st..sp.a]) && AllDigits(s[sp.a + 1..sp.b]) && AllDigits(s[sp.b + 1..sp.e])
  {
    forall st', a, b, e | st' < st && DottedMatch(s, st', a, b, e)
      ensures false
    {
      LeftmostSkips(DottedAttempt(s), 0, |s|, st');
      DottedAtComplete(s, st', a, b, e);
    }
    forall e' | DottedMatch(s, st, sp.a, sp.b, e')
      ensures e' <= sp.e
    {
      DottedAtComplete(s, st, sp.a, sp.b, e');
    }
    DigitsSlice(s, st, sp.a);
    DigitsSlice(s, sp.a + 1, sp.b);
    DigitsSlice(s, sp.b + 1, sp.e);
  }
}

=== FILE: feed.dfy ===
/**
 * The normalized feed every provider builds through `RSS::Maker`: channel
 * metadata and items whose guid is their own link, flagged as a permalink.
 * Rendering the document is not modelled; `sorted` records that the maker's
 * `items.do_sort` flag is set, which orders items by date when rendering.
 */
module Feed {
  import opened Wrappers
  import opened Runtime

  datatype Guid = Guid(content: string, isPermaLink: bool)

  datatype Item = Item(title: Option<string>, link: string, date: Time, guid: Guid)

  datatype Channel = Channel(title: Option<string>, link: string, description: Option<string>)

  datatype Feed = Feed(channel: Channel, items: seq<Item>, sorted: bool)

  /** What a provider's `rss` ends in: a feed, a `Redirect` raised on purpose, or another exception. */
  datatype Outcome = Document(feed: Feed) | Redirect(target: string) | Raised(error: Error)

  /** The guid of the item is its link, flagged as a permalink. */
  predicate PermaLinked(item: Item) {
    item.guid.content == item.link && item.guid.isPermaLink
  }

  /** The block every provider passes to `maker.items.new_item`. */
  function NewItem(title: Option<string>, link: string, date: Time): (item: Item)
    ensures PermaLinked(item)
    ensures item.title == title && item.link == link && item.date == date
  {
    Item(title, link, date, Guid(link, true))
  }

  /** A feed as `RSS::Maker.make` leaves it: `do_sort` set and every guid a permalink to its item. */
  predicate WellFormed(feed: Feed) {
    feed.sorted && forall i :: 0 <= i < |feed.items| ==> PermaLinked(feed.items[i])
  }

  /** What one candidate entry contributes: nothing (`next`), an item, or an exception that ends the feed. */
  datatype Step = Skip | Emit(item: Item) | Abort(error: Error)

  /** How many of the first `n` steps emit an item. */
  function EmitCount(steps: seq<Step>, n: nat): nat
    requires n <= |steps|
  {
    if n == 0 then 0 else EmitCount(steps, n - 1) + (if steps[n - 1].Emit? then 1 else 0)
  }

  /** The item of every emitting step sits at the position counting the emitting steps before it. */
  ghost predicate Placed(steps: seq<Step>, items: seq<Item>) {
    forall i :: 0 <= i < |steps| && steps[i].Emit? ==>
      EmitCount(steps, i) < |items| && items[EmitCount(steps, i)] == steps[i].item
  }

  /** Some step emits `item`. */
  ghost predicate EmittedBy(steps: seq<Step>, item: Item) {
    exists i :: 0 <= i < |steps| && steps[i] == Emit(item)
  }

  /**
   * `items` are exactly the emitted items in source order: as many as there
   * are emitting steps, each where its step puts it, and none from elsewhere.
   */
  ghost predicate Lists(steps: seq<Step>, items: seq<Item>) {
    && |items| == EmitCount(steps, |steps|)
    && Placed(steps, items)
    && (forall k :: 0 <= k < |items| ==> EmittedBy(steps, items[k]))
  }

  /** The step at `i` raises `error` and no step before it raises. */
  ghost predicate FirstRaise(steps: seq<Step>, i: int, error: Error) {
    0 <= i < |steps| && steps[i] == Abort(error) && forall j :: 0 <= j < i ==> !steps[j].Abort?
  }

  /** Counting over `steps[1..]` is counting over `steps` less its head. */
  lemma {:induction false} EmitCountTail(steps: seq<Step>, n: nat)
    requires 1 <= n <= |steps|
    ensures EmitCount(steps, n) == (if steps[0].Emit? then 1 else 0) + EmitCount(steps[1..], n - 1)
  {
    if n > 1 {
      EmitCountTail(steps, n - 1);
      assert steps[1..][n - 2] == steps[n - 1];
    }
  }

  /**
   * The `each` loop over the candidates: the items of the emitting steps in
   * order, or the exception of the first step that raises.
   */
  function Collect(steps: seq<Step>): (r: Result<seq<Item>, Error>)
    ensures r.Failure? <==> exists i :: 0 <= i < |steps| && steps[i].Abort?
    ensures r.Failure? ==> exists i :: FirstRaise(steps, i, r.error)
    ensures r.Success? ==> Lists(steps, r.value)
  {
    if |steps| == 0 then Success([])
    else if steps[0].Abort? then
      assert FirstRaise(steps, 0, steps[0].error);
      Failure(steps[0].error)
    else
      var rest := Collect(steps[1..]);
      match rest
      case Failure(e) =>
        RaiseAfterHead(steps, e);
        Failure(e)
      case Success(items) =>
        NoRaiseAfterHead(steps);
        ListsAfterHead(steps, items);
        Success(if steps[0].Emit? then [steps[0].item] + items else items)
  }

  /** A first raise in `steps[1..]` behind a head that does not raise. */
  lemma RaiseAfterHead(steps: seq<Step>, e: Error)
    requires |steps| > 0 && !steps[0].Abort?
    requires exists i :: FirstRaise(steps[1..], i, e)
    ensures exists i :: FirstRaise(steps, i, e)
    ensures exists i :: 0 <= i < |steps| && steps[i].Abort?
  {
    var i :| FirstRaise(steps[1..], i, e);
    assert FirstRaise(steps, i + 1, e);
  }

  /** No step of `steps` raises when neither its head nor any step of its tail does. */
  lemma NoRaiseAfterHead(steps: seq<Step>)
    requires |steps| > 0 && !steps[0].Abort?
    requires forall i :: 0 <= i < |steps[1..]| ==> !steps[1..][i].Abort?
    ensures forall i :: 0 <= i < |steps| ==> !steps[i].Abort?
  {
    forall i | 1 <= i < |steps|
      ensures !steps[i].Abort?
    {
      assert steps[i] == steps[1..][i - 1];
    }
  }

  /** Extending the listing of `steps[1..]` by the head step. */
  lemma ListsAfterHead(steps: seq<Step>, items: seq<Item>)
    requires |steps| > 0
    requires Lists(steps[1..], items)
    ensures Lists(steps, if steps[0].Emit? then [steps[0].item] + items else items)
  {
    var out := if steps[0].Emit? then [steps[0].item] + items else items;
    EmitCountTail(steps, |steps|);
    assert |out| == EmitCount(steps, |steps|);
    PlacedAfterHead(steps, items);
    EmittedAfterHead(steps, items);
  }

  lemma PlacedAfterHead(steps: seq<Step>, items: seq<Item>)
    requires |steps| > 0
    requires Placed(steps[1..], items)
    ensures Placed(steps, if steps[0].Emit? then [steps[0].item] + items else items)
  {
    var out := if steps[0].Emit? then [steps[0].item] + items else items;
    forall i | 0 <= i < |steps| && steps[i].Emit?
      ensures EmitCount(steps, i) < |out| && out[EmitCount(steps, i)] == steps[i].item
    {
      if i > 0 {
        EmitCountTail(steps, i);
        assert steps[1..][i - 1] == steps[i];
      }
    }
  }

  lemma EmittedAfterHead(steps: seq<Step>, items: seq<Item>)
    requires |steps| > 0
    requires forall k :: 0 <= k < |items| ==> EmittedBy(steps[1..], items[k])
    ensures var out := if steps[0].Emit? then [steps[0].item] + items else items;
            forall k :: 0 <= k < |out| ==> EmittedBy(steps, out[k])
  {
    var h := if steps[0].Emit? then 1 else 0;
    var out := if steps[0].Emit? then [steps[0].item] + items else items;
    forall k | 0 <= k < |out|
      ensures EmittedBy(steps, out[k])
    {
      if k < h {
        assert steps[0] == Emit(out[k]);
      } else {
        assert out[k] == items[k - h];
        var i :| 0 <= i < |steps[1..]| && steps[1..][i] == Emit(items[k - h]);
        assert steps[i + 1] == Emit(out[k]);
      }
    }
  }

  /** Every item of a listing is a permalink when every emitted item is one. */
  lemma ListedPermaLinked(steps: seq<Step>, items: seq<Item>)
    requires Lists(steps, items)
    requires forall i :: 0 <= i < |steps| && steps[i].Emit? ==> PermaLinked(steps[i].item)
    ensures forall k :: 0 <= k < |items| ==> PermaLinked(items[k])
  {
    forall k | 0 <= k < |items|
      ensures PermaLinked(items[k])
    {
      assert EmittedBy(steps, items[k]);
      var i :| 0 <= i < |steps| && steps[i] == Emit(items[k]);
    }
  }

  /** The candidates of an `each` loop turned into its steps, one per candidate, in order. */
  function StepsOf<T>(step: T -> Step, candidates: seq<T>): (steps: seq<Step>)
    ensures |steps| == |candidates|
    ensures forall i :: 0 <= i < |candidates| ==> steps[i] == step(candidates[i])
  {
    seq(|candidates|, i requires 0 <= i < |candidates| => step(candidates[i]))
  }

  /** `RSS::Maker.make` over a channel and the collected candidates, with `do_sort` set. */
  function Make(channel: Channel, steps: seq<Step>): (r: Outcome)
    requires forall i :: 0 <= i < |steps| && steps[i].Emit? ==> PermaLinked(steps[i].item)
    ensures r.Document? || r.Raised?
    ensures r.Raised? <==> exists i :: 0 <= i < |steps| && steps[i].Abort?
    ensures r.Raised? ==> exists i :: FirstRaise(steps, i, r.error)
    ensures r.Document? ==> r.feed.channel == channel && WellFormed(r.feed) && Lists(steps, r.feed.items)
  {
    match Collect(steps)
    case Failure(e) => Raised(e)
    case Success(items) =>
      ListedPermaLinked(steps, items);
      Document(Feed(channel, items, true))
  }
}

=== FILE: form_encoding.dfy ===
/**
 * `URI.encode_www_form_component`, the `u` helper every provider applies to
 * the identifiers it interpolates into URLs. It follows the
 * application/x-www-form-urlencoded byte serializer of section 5.2 of the
 * WHATWG URL Standard: the string's UTF-8 bytes, with `*-._`, ASCII digits
 * and ASCII letters kept, a space written as `+`, and every other byte
 * written as `%` and two upper-case hexadecimal digits.
 */
module FormEncoding {

  newtype byte = x: int | 0 <= x < 256

  /** The UTF-8 encoding of one Unicode scalar value. */
  function Utf8(c: char): (bs: seq<byte>)
    ensures 1 <= |bs| <= 4
  {
    var n := c as int;
    if n < 0x80 then
      [n as byte]
    else if n < 0x800 then
      [(0xC0 + n / 0x40) as byte, (0x80 + n % 0x40) as byte]
    else if n < 0x1_0000 then
      [(0xE0 + n / 0x1000) as byte, (0x80 + (n / 0x40) % 0x40) as byte, (0x80 + n % 0x40) as byte]
    else
      [(0xF0 + n / 0x4_0000) as byte, (0x80 + (n / 0x1000) % 0x40) as byte,
       (0x80 + (n / 0x40) % 0x40) as byte, (0x80 + n % 0x40) as byte]
  }

  /** The bytes the serializer leaves as they are. */
  predicate Unreserved(b: byte) {
    b == 0x2A || b == 0x2D || b == 0x2E || b == 0x5F      // * - . _
    || (0x30 <= b <= 0x39) || (0x41 <= b <= 0x5A) || (0x61 <= b <= 0x7A)
  }

  function HexDigit(d: int): char
    requires 0 <= d < 16
  {
    if d < 10 then ('0' as int + d) as char else ('A' as int + d - 10) as char
  }

  function EncodeByte(b: byte): string {
    if Unreserved(b) then [b as int as char]
    else if b == 0x20 then "+"
    else ['%', HexDigit(b as int / 16), HexDigit(b as int % 16)]
  }

  function EncodeBytes(bs: seq<byte>): string {
    if |bs| == 0 then "" else EncodeByte(bs[0]) + EncodeBytes(bs[1..])
  }

  /** `URI.encode_www_form_component(s)` for a string `s`. */
  function Encode(s: string): string {
    if |s| == 0 then "" else EncodeBytes(Utf8(s[0])) + Encode(s[1..])
  }
}

=== FILE: gangan_online.dfy ===
/**
 * The GanganOnline provider (`ganganonline.com`): reads the JSON embedded in
 * the index page's `#__NEXT_DATA__` script and walks
 * `props.pageProps.data.default.chapters`. A chapter becomes an item when
 * its `publishingPeriod` holds a dotted `Y.M.D` date; a date whose month or
 * day `Time.new` refuses raises.
 */
module GanganOnline {
  import opened Wrappers
  import opened Text
  import opened Runtime
  import opened Feed
  import DateScan
  import FormEncoding

  /** One element of `chapters`. */
  datatype Chapter = Chapter(id: Field<Scalar>, mainText: Field<string>, subText: Field<string>,
                             publishingPeriod: Field<string>)

  /** `data.dig('props', 'pageProps', 'data', 'default')` when every key on the path is there. */
  datatype Props = Props(description: Field<string>, chapters: Field<seq<Chapter>>)

  /** The text of the `#__NEXT_DATA__` script: not JSON, or JSON whose `dig` gave `props` (`None` for nil). */
  datatype NextData = NotJson | Json(props: Option<Props>)

  /** The index page: its `<title>` and its `#__NEXT_DATA__` script, if any. */
  datatype Page = Page(title: Option<string>, nextData: Option<NextData>)

  function IndexUrl(id: string): string {
    "https://www.ganganonline.com/title/" + FormEncoding.Encode(id)
  }

  function ChapterUrl(id: string, chapter: Chapter): string {
    IndexUrl(id) + "/chapter/" + FormEncoding.Encode(ToS(Index(chapter.id)))
  }

  /** `values_at('mainText', 'subText').compact.join(' ')`: nils are dropped, empty strings are kept. */
  function ChapterTitle(main: Option<string>, sub: Option<string>): (r: string)
    ensures main.Some? && sub.Some? ==> r == main.value + " " + sub.value
    ensures main.Some? && sub.None? ==> r == main.value
    ensures main.None? && sub.Some? ==> r == sub.value
    ensures main.None? && sub.None? ==> r == ""
  {
    assert [main, sub][1..] == [sub] && [sub][1..] == [];
    var kept := Compact([main, sub]);
    assert Compact([sub]) == (if sub.Some? then [sub.value] else []);
    assert kept == (if main.Some? then [main.value] else []) + (if sub.Some? then [sub.value] else []);
    assert |kept| == 2 ==> kept[1..] == [kept[1]] && JoinWithSpace(kept[1..]) == kept[1];
    JoinWithSpace(kept)
  }

  /**
   * The date of a chapter: `Time.new(y, m, d)` at the local UTC offset of
   * the first dotted triple of `publishingPeriod`, with the day read as the
   * whole digit run (`ArgumentError` for a month or day out of range,
   * `RangeError` for one too wide for a C `int`);
   * `nil` when the text is missing or has no such triple.
   */
  function PublishedAt(env: Env, period: Option<string>): (r: Option<Result<Time, Error>>)
    ensures r.None? <==> period.None? || forall st, a, b, e :: !DateScan.DottedMatch(period.value, st, a, b, e)
    ensures r.Some? ==> period.Some? && exists st, a, b, e ::
      && DateScan.DottedMatch(period.value, st, a, b, e) && DateScan.NoDottedMatchBefore(period.value, st)
      && (forall e' :: DateScan.DottedMatch(period.value, st, a, b, e') ==> e' <= e)
      && AllDigits(period.value[st..a]) && AllDigits(period.value[a + 1..b]) && AllDigits(period.value[b + 1..e])
      && r.value == TimeNew(DecimalValue(period.value[st..a]), DecimalValue(period.value[a + 1..b]),
                            DecimalValue(period.value[b + 1..e]), env.localOffset)
  {
    match period
    case None => None
    case Some(p) =>
      match DateScan.MatchDottedDate(p)
      case None => None
      case Some((y, m, d)) => Some(TimeNew(DecimalValue(y), DecimalValue(m), DecimalValue(d), env.localOffset))
  }

  /**
   * One iteration over `chapters`: skipped without a dotted date, raises
   * when `Time.new` refuses the date, and otherwise an item.
   */
  function ChapterStep(env: Env, id: string, chapter: Chapter): (st: Step)
    ensures st.Skip? <==> PublishedAt(env, Index(chapter.publishingPeriod)).None?
    ensures st.Abort? ==> PublishedAt(env, Index(chapter.publishingPeriod)) == Some(Failure(st.error))
    ensures st.Emit? ==> && PermaLinked(st.item)
                         && st.item.link == ChapterUrl(id, chapter)
                         && st.item.title == Some(ChapterTitle(Index(chapter.mainText), Index(chapter.subText)))
                         && PublishedAt(env, Index(chapter.publishingPeriod)) == Some(Success(st.item.date))
  {
    match PublishedAt(env, Index(chapter.publishingPeriod))
    case None => Skip
    case Some(Failure(e)) => Abort(e)
    case Some(Success(date)) =>
      Emit(NewItem(Some(ChapterTitle(Index(chapter.mainText), Index(chapter.subText))), ChapterUrl(id, chapter), date))
  }

  function Steps(env: Env, id: string, chapters: seq<Chapter>): seq<Step> {
    StepsOf(chapter => ChapterStep(env, id, chapter), chapters)
  }

  /** `GanganOnline#rss(id)`. */
  function Rss(env: Env, fetch: string -> Fetch<Page>, id: string): (r: Outcome)
    ensures !r.Redirect?
    ensures fetch(IndexUrl(id)).FetchFailed? ==> r == Raised(fetch(IndexUrl(id)).error)
    ensures fetch(IndexUrl(id)).Fetched? && fetch(IndexUrl(id)).doc.nextData.None? ==> r == Raised(NoMethodError)
    ensures fetch(IndexUrl(id)).Fetched? && fetch(IndexUrl(id)).doc.nextData == Some(NotJson) ==> r == Raised(ParserError)
    ensures r.Document? ==>
      && fetch(IndexUrl(id)).Fetched?
      && var page := fetch(IndexUrl(id)).doc;
      && page.nextData.Some? && page.nextData.value.Json? && page.nextData.value.props.Some?
      && var props := page.nextData.value.props.value;
      && props.chapters.Present?
      && r.feed.channel == Channel(page.title, IndexUrl(id), Index(props.description))
      && WellFormed(r.feed)
      && Lists(Steps(env, id, props.chapters.value), r.feed.items)
    ensures fetch(IndexUrl(id)).Fetched? ==>
      var page := fetch(IndexUrl(id)).doc;
      page.nextData.Some? && page.nextData.value.Json? && page.nextData.value.props.Some?
      && page.nextData.value.props.value.chapters.Present? ==>
        var steps := Steps(env, id, page.nextData.value.props.value.chapters.value);
        && (r.Document? || r.Raised?)
        && (r.Raised? <==> exists i :: 0 <= i < |steps| && steps[i].Abort?)
  {
    var index := IndexUrl(id);
    match fetch(index)
    case FetchFailed(e) => Raised(e)
    case Fetched(page) =>
      match page.nextData
      case None => Raised(NoMethodError)
      case Some(NotJson) => Raised(ParserError)
      case Some(Json(None)) => Raised(NoMethodError)
      case Some(Json(Some(props))) =>
        match Index(props.chapters)
        case None => Raised(NoMethodError)
        case Some(chapters) =>
          Make(Channel(page.title, index, Index(props.description)), Steps(env, id, chapters))
  }

  /** `Time.new` refused the chapter's dotted date: its month or day is out of range. */
  predicate DateRefused(env: Env, chapter: Chapter) {
    var date := PublishedAt(env, Index(chapter.publishingPeriod));
    date.Some? && date.value.Failure?
  }

  /**
   * Once the chapter list is read, the feed fails exactly when some chapter's
   * dotted date has a month or day `Time.new` refuses, and is built otherwise.
   */
  lemma ChapterFailureIsBadDate(env: Env, fetch: string -> Fetch<Page>, id: string)
    requires fetch(IndexUrl(id)).Fetched?
    requires var page := fetch(IndexUrl(id)).doc;
             page.nextData.Some? && page.nextData.value.Json? && page.nextData.value.props.Some?
             && page.nextData.value.props.value.chapters.Present?
    ensures var chapters := fetch(IndexUrl(id)).doc.nextData.value.props.value.chapters.value;
            && (Rss(env, fetch, id).Document? || Rss(env, fetch, id).Raised?)
            && (Rss(env, fetch, id).Raised? <==> exists i :: 0 <= i < |chapters| && DateRefused(env, chapters[i]))
  {
    var chapters := fetch(IndexUrl(id)).doc.nextData.value.props.value.chapters.value;
    StepsRaiseOnRefusedDates(env, id, chapters);
  }

  /** A chapter's step raises exactly when `Time.new` refuses its date. */
  lemma StepsRaiseOnRefusedDates(env: Env, id: string, chapters: seq<Chapter>)
    ensures forall i :: 0 <= i < |chapters| ==> (Steps(env, id, chapters)[i].Abort? <==> DateRefused(env, chapters[i]))
  {
    var steps := Steps(env, id, chapters);
    forall i | 0 <= i < |chapters|
      ensures steps[i].Abort? <==> DateRefused(env, chapters[i])
    {
      assert steps[i] == ChapterStep(env, id, chapters[i]);
    }
  }

  /** The built feed has one item per chapter with a dotted date, and only those. */
  lemma ItemsAreDatedChapters(env: Env, fetch: string -> Fetch<Page>, id: string)
    requires Rss(env, fetch, id).Document?
    ensures var chapters := fetch(IndexUrl(id)).doc.nextData.value.props.value.chapters.value;
            var steps := Steps(env, id, chapters);
            && (forall i :: 0 <= i < |chapters| ==>
                  (steps[i].Emit? <==> PublishedAt(env, Index(chapters[i].publishingPeriod)).Some?))
            && (forall i :: 0 <= i < |chapters| ==> !steps[i].Abort?)
            && |Rss(env, fetch, id).feed.items| == EmitCount(steps, |steps|)
  {
    var chapters := fetch(IndexUrl(id)).doc.nextData.value.props.value.chapters.value;
    var steps := Steps(env, id, chapters);
    forall i | 0 <= i < |chapters|
      ensures steps[i].Emit? <==> PublishedAt(env, Index(chapters[i].publishingPeriod)).Some?
    {
      assert steps[i] == ChapterStep(env, id, chapters[i]);
    }
  }
}

=== FILE: magnet_novels.dfy ===
/**
 * The Magnet Novels handler: given the novel id of the request and the two
 * API responses, it builds one item per section of the novel and answers
 * with status 200 and the feed. The two requests themselves, made on two
 * threads, are inputs here.
 */
module MagnetNovels {
  import opened Wrappers
  import opened Runtime
  import opened Feed

  /** The invocation event: its `pathParameters` object, if any. */
  datatype Event = Event(pathParameters: Field<map<string, string>>)

  datatype NovelData = NovelData(name: Field<string>, synopsis: Field<string>)

  /** The `getNovelInfo` response. */
  datatype NovelInfo = NovelInfo(data: Field<NovelData>)

  /** One element of the `getNovelContents` response's `data`. */
  datatype Section = Section(id: Field<Scalar>, title: Field<string>,
                             publicTime: Field<Scalar>, latestPublicTime: Field<Scalar>)

  /** The `getNovelContents` response. */
  datatype NovelContents = NovelContents(data: Field<seq<Section>>)

  /** The response envelope; `body` is the feed document the maker renders. */
  datatype Response = Response(statusCode: int, body: Feed, headers: map<string, string>)

  const ContentType: string := "application/rdf+xml"

  /** The novel's page; the id is interpolated as it is, without URL-encoding. */
  function NovelUrl(novelId: string): string {
    "https://www.magnet-novels.com/novels/" + novelId
  }

  function EpisodeUrl(novelId: string, section: Section): string {
    NovelUrl(novelId) + "/episodes/" + ToS(Index(section.id))
  }

  /** `Time.parse(section['public_time'] || section['latest_public_time'])`. */
  function PublishedAt(env: Env, section: Section): (r: Result<Time, Error>)
    ensures Truthy(Index(section.publicTime)) ==> r == TimeParse(env, Index(section.publicTime))
    ensures !Truthy(Index(section.publicTime)) ==> r == TimeParse(env, Index(section.latestPublicTime))
  {
    TimeParse(env, Or(Index(section.publicTime), Index(section.latestPublicTime)))
  }

  /** One iteration over `data`: every section gives an item; only an unreadable date raises. */
  function SectionStep(env: Env, novelId: string, section: Section): (st: Step)
    ensures !st.Skip?
    ensures st.Abort? <==> PublishedAt(env, section).Failure?
    ensures st.Emit? ==> && PermaLinked(st.item)
                         && st.item.link == EpisodeUrl(novelId, section)
                         && st.item.title == Index(section.title)
                         && PublishedAt(env, section) == Success(st.item.date)
  {
    match PublishedAt(env, section)
    case Failure(e) => Abort(e)
    case Success(date) => Emit(NewItem(Index(section.title), EpisodeUrl(novelId, section), date))
  }

  function Steps(env: Env, novelId: string, sections: seq<Section>): seq<Step> {
    StepsOf(section => SectionStep(env, novelId, section), sections)
  }

  /** `handler(event:, context:)`, with the two threads' values given. */
  function Handler(env: Env, event: Event, info: Fetch<NovelInfo>, contents: Fetch<NovelContents>)
    : (r: Result<Response, Error>)
    ensures event.pathParameters.Present? && "novelId" !in event.pathParameters.value ==>
              r == Failure(KeyError("novelId"))
    ensures !event.pathParameters.Present? ==> r == Failure(NoMethodError)
    ensures event.pathParameters.Present? && "novelId" in event.pathParameters.value && info.FetchFailed? ==>
              r == Failure(info.error)
    ensures event.pathParameters.Present? && "novelId" in event.pathParameters.value
            && info.Fetched? && contents.FetchFailed? ==>
              r == Failure(contents.error)
    ensures event.pathParameters.Present? && "novelId" in event.pathParameters.value
            && info.Fetched? && contents.Fetched? && (!info.doc.data.Present? || !contents.doc.data.Present?) ==>
              r == Failure(NoMethodError)
    ensures event.pathParameters.Present? && "novelId" in event.pathParameters.value
            && info.Fetched? && contents.Fetched? && info.doc.data.Present? && contents.doc.data.Present? ==>
              var steps := Steps(env, event.pathParameters.value["novelId"], contents.doc.data.value);
              r.Failure? <==> exists i :: 0 <= i < |steps| && steps[i].Abort?
    ensures r.Success? ==>
      && event.pathParameters.Present? && "novelId" in event.pathParameters.value
      && info.Fetched? && contents.Fetched?
      && info.doc.data.Present? && contents.doc.data.Present?
      && var novelId := event.pathParameters.value["novelId"];
      && var data := info.doc.data.value;
      && r.value.statusCode == 200
      && r.value.headers == map["Content-Type" := ContentType]
      && r.value.body.channel == Channel(Index(data.name), NovelUrl(novelId), Index(data.synopsis))
      && WellFormed(r.value.body)
      && Lists(Steps(env, novelId, contents.doc.data.value), r.value.body.items)
  {
    match Index(event.pathParameters)
    case None => Failure(NoMethodError)
    case Some(parameters) =>
      if "novelId" !in parameters then Failure(KeyError("novelId"))
      else
        var novelId := parameters["novelId"];
        match info
        case FetchFailed(e) => Failure(e)
        case Fetched(novelInfo) =>
          match contents
          case FetchFailed(e) => Failure(e)
          case Fetched(novelContents) =>
            match Index(novelInfo.data)
            case None => Failure(NoMethodError)
            case Some(data) =>
              match Index(novelContents.data)
              case None => Failure(NoMethodError)
              case Some(sections) =>
                var channel := Channel(Index(data.name), NovelUrl(novelId), Index(data.synopsis));
                var outcome := Make(channel, Steps(env, novelId, sections));
                if outcome.Document? then Success(Response(200, outcome.feed, map["Content-Type" := ContentType]))
                else Failure(outcome.error)
  }

  /**
   * Nothing is filtered: with the parameters present, both requests answered
   * with data and every section's date readable, the handler answers, with
   * exactly one item per section, the section's at its own position.
   */
  lemma OneItemPerSection(env: Env, event: Event, info: Fetch<NovelInfo>, contents: Fetch<NovelContents>)
    requires event.pathParameters.Present? && "novelId" in event.pathParameters.value
    requires info.Fetched? && info.doc.data.Present?
    requires contents.Fetched? && contents.doc.data.Present?
    requires forall i :: 0 <= i < |contents.doc.data.value| ==> PublishedAt(env, contents.doc.data.value[i]).Success?
    ensures Handler(env, event, info, contents).Success?
    ensures var sections := contents.doc.data.value;
            var items := Handler(env, event, info, contents).value.body.items;
            && |items| == |sections|
            && forall i :: 0 <= i < |sections| ==>
                 SectionStep(env, event.pathParameters.value["novelId"], sections[i]) == Emit(items[i])
  {
    var novelId := event.pathParameters.value["novelId"];
    var sections := contents.doc.data.value;
    var steps := Steps(env, novelId, sections);
    FailsOnUnreadableDate(env, event, info, contents);
    forall i | 0 <= i < |steps|
      ensures steps[i] == SectionStep(env, novelId, sections[i]) && steps[i].Emit?
    {
      assert steps[i] == SectionStep(env, novelId, sections[i]);
    }
    AllEmitCount(steps, |steps|);
  }

  /**
   * There is no partial feed: once both responses carry `data`, the handler
   * fails exactly when some section's date cannot be read.
   */
  lemma FailsOnUnreadableDate(env: Env, event: Event, info: Fetch<NovelInfo>, contents: Fetch<NovelContents>)
    requires event.pathParameters.Present? && "novelId" in event.pathParameters.value
    requires info.Fetched? && info.doc.data.Present?
    requires contents.Fetched? && contents.doc.data.Present?
    ensures var sections := contents.doc.data.value;
            Handler(env, event, info, contents).Failure? <==>
              exists i :: 0 <= i < |sections| && PublishedAt(env, sections[i]).Failure?
  {
    var novelId := event.pathParameters.value["novelId"];
    var sections := contents.doc.data.value;
    var steps := Steps(env, novelId, sections);
    forall i | 0 <= i < |sections|
      ensures steps[i].Abort? <==> PublishedAt(env, sections[i]).Failure?
    {
      assert steps[i] == SectionStep(env, novelId, sections[i]);
    }
  }

  /** When every step emits, the first `n` steps emit `n` items. */
  lemma {:induction false} AllEmitCount(steps: seq<Step>, n: nat)
    requires n <= |steps|
    requires forall i :: 0 <= i < |steps| ==> steps[i].Emit?
    ensures forall i :: 0 <= i <= n ==> EmitCount(steps, i) == i
  {
    if n > 0 {
      AllEmitCount(steps, n - 1);
    }
  }
}

=== FILE: providers.dfy ===
/**
 * The provider registry: each provider class registers itself under its
 * site id when it is loaded (`provider_id`), and `find` looks an id up,
 * raising `KeyError` for an id nobody registered. `FetchFeed` is the
 * lookup followed by the provider's `rss`.
 */
module Providers {
  import opened Wrappers
  import opened Runtime
  import opened Feed
  import Storia
  import GanganOnline
  import UraSunday
  import WebAce
  import ComicWalker

  datatype Provider = Storia | GanganOnline | UraSunday | WebAce | ComicWalker

  type Registry = map<string, Provider>

  /** `provider_id`: `Providers.providers[id] = self`, replacing any earlier class under `id`. */
  function Register(registry: Registry, id: string, provider: Provider): (r: Registry)
    ensures id in r && r[id] == provider
    ensures forall other :: other != id ==> (other in r <==> other in registry)
    ensures forall other :: other != id && other in registry ==> r[other] == registry[other]
  {
    registry[id := provider]
  }

  /** The registrations in load order. */
  function RegisterAll(registry: Registry, declarations: seq<(string, Provider)>): Registry
    decreases |declarations|
  {
    if |declarations| == 0 then registry
    else RegisterAll(Register(registry, declarations[0].0, declarations[0].1), declarations[1..])
  }

  /** `Providers.find(id)`: `providers.fetch(id)`. */
  function Find(registry: Registry, id: string): (r: Result<Provider, Error>)
    ensures r.Failure? <==> id !in registry
    ensures r.Failure? ==> r.error == KeyError(id)
    ensures r.Success? ==> registry[id] == r.value
  {
    if id in registry then Success(registry[id]) else Failure(KeyError(id))
  }

  /** The provider of the last of the first `n` declarations that is under `id`, searching from the end. */
  function LastDeclaredAmong(declarations: seq<(string, Provider)>, id: string, n: nat): Option<Provider>
    requires n <= |declarations|
  {
    if n == 0 then None
    else if declarations[n - 1].0 == id then Some(declarations[n - 1].1)
    else LastDeclaredAmong(declarations, id, n - 1)
  }

  /** The provider of the last declaration under `id`. */
  function LastDeclared(declarations: seq<(string, Provider)>, id: string): Option<Provider> {
    LastDeclaredAmong(declarations, id, |declarations|)
  }

  /** Dropping the first declaration changes the last one under `id` only if there was no other. */
  lemma {:induction false} LastDeclaredTail(declarations: seq<(string, Provider)>, id: string, n: nat)
    requires 1 <= n <= |declarations|
    ensures LastDeclaredAmong(declarations, id, n) ==
            match LastDeclaredAmong(declarations[1..], id, n - 1)
            case Some(p) => Some(p)
            case None => if declarations[0].0 == id then Some(declarations[0].1) else None
  {
    if n > 1 {
      assert declarations[1..][n - 2] == declarations[n - 1];
      LastDeclaredTail(declarations, id, n - 1);
    }
  }

  /**
   * `find` returns the class registered last under `id`, so a later
   * registration overwrites an earlier one; with none, the lookup falls
   * through to what was registered before.
   */
  lemma {:induction false} FindReturnsLastRegistration(registry: Registry, declarations: seq<(string, Provider)>, id: string)
    ensures Find(RegisterAll(registry, declarations), id) ==
            match LastDeclared(declarations, id)
            case Some(p) => Success(p)
            case None => Find(registry, id)
    decreases |declarations|
  {
    if |declarations| > 0 {
      var (first, provider) := declarations[0];
      FindReturnsLastRegistration(Register(registry, first, provider), declarations[1..], id);
      LastDeclaredTail(declarations, id, |declarations|);
    }
  }

  /** The `provider_id` declarations of the five classes, in the order they are loaded. */
  const Declarations: seq<(string, Provider)> := [
    ("storia.takeshobo.co.jp", Storia),
    ("ganganonline.com", GanganOnline),
    ("urasunday.com", UraSunday),
    ("web-ace.jp", WebAce),
    ("comic-walker.com", ComicWalker)
  ]

  /** `Providers.providers` once every class is loaded. */
  function Providers(): Registry {
    RegisterAll(map[], Declarations)
  }

  /** The registry the five declarations leave, written out. */
  lemma ProvidersTable()
    ensures Providers() == map[
      "storia.takeshobo.co.jp" := Storia, "ganganonline.com" := GanganOnline, "urasunday.com" := UraSunday,
      "web-ace.jp" := WebAce, "comic-walker.com" := ComicWalker]
  {
    var r1 := Register(map[], Declarations[0].0, Declarations[0].1);
    var r2 := Register(r1, Declarations[1].0, Declarations[1].1);
    var r3 := Register(r2, Declarations[2].0, Declarations[2].1);
    var r4 := Register(r3, Declarations[3].0, Declarations[3].1);
    var r5 := Register(r4, Declarations[4].0, Declarations[4].1);
    assert RegisterAll(map[], Declarations) == RegisterAll(r1, Declarations[1..]);
    assert RegisterAll(r1, Declarations[1..]) == RegisterAll(r2, Declarations[2..]);
    assert RegisterAll(r2, Declarations[2..]) == RegisterAll(r3, Declarations[3..]);
    assert RegisterAll(r3, Declarations[3..]) == RegisterAll(r4, Declarations[4..]);
    assert RegisterAll(r4, Declarations[4..]) == RegisterAll(r5, Declarations[5..]);
  }

  /** No two declarations share an id. */
  predicate DistinctIds(declarations: seq<(string, Provider)>) {
    forall i, j :: 0 <= i < j < |declarations| ==> declarations[i].0 != declarations[j].0
  }

  /** With distinct ids, the last declaration under a declared id is that declaration itself. */
  lemma {:induction false} LastDeclaredOfDistinct(declarations: seq<(string, Provider)>, i: int, n: nat)
    requires DistinctIds(declarations) && 0 <= i < n <= |declarations|
    ensures LastDeclaredAmong(declarations, declarations[i].0, n) == Some(declarations[i].1)
  {
    if i < n - 1 {
      LastDeclaredOfDistinct(declarations, i, n - 1);
    }
  }

  lemma DeclaredIdsDistinct()
    ensures DistinctIds(Declarations)
  {
    assert Declarations[1].0[0] != Declarations[4].0[0];
  }

  /** The five providers register five distinct ids, and each id finds its own provider. */
  lemma FiveDistinctIds()
    ensures DistinctIds(Declarations)
    ensures |Providers()| == 5
    ensures forall i :: 0 <= i < |Declarations| ==> Find(Providers(), Declarations[i].0) == Success(Declarations[i].1)
  {
    DeclaredIdsDistinct();
    ProvidersTable();
    forall i | 0 <= i < |Declarations|
      ensures Find(Providers(), Declarations[i].0) == Success(Declarations[i].1)
    {
      FindReturnsLastRegistration(map[], Declarations, Declarations[i].0);
      LastDeclaredOfDistinct(Declarations, i, |Declarations|);
    }
  }

  /** An id no class declared fails with `KeyError`. */
  lemma UnknownIdRaises(id: string)
    requires forall i :: 0 <= i < |Declarations| ==> Declarations[i].0 != id
    ensures Find(Providers(), id) == Failure(KeyError(id))
  {
    FindReturnsLastRegistration(map[], Declarations, id);
    assert LastDeclared(Declarations, id).None?;
  }

  /** The documents each fetching provider receives for the URL it requests. */
  datatype Web = Web(
    storia: string -> Fetch<Storia.Page>,
    ganganOnline: string -> Fetch<GanganOnline.Page>,
    uraSunday: string -> Fetch<UraSunday.Page>,
    comicWalker: string -> Fetch<ComicWalker.Body>)

  /**
   * `provider.new.rss(id)`: each class runs its own module's `rss` on the
   * documents its URLs return; only WebAce redirects, and every document is
   * well formed.
   */
  function Rss(provider: Provider, env: Env, web: Web, id: string): (r: Outcome)
    ensures provider == Storia ==> r == Storia.Rss(env, web.storia, id)
    ensures provider == GanganOnline ==> r == GanganOnline.Rss(env, web.ganganOnline, id)
    ensures provider == UraSunday ==> r == UraSunday.Rss(env, web.uraSunday, id)
    ensures provider == WebAce ==> r == WebAce.Rss(id)
    ensures provider == ComicWalker ==> r == ComicWalker.Rss(env, web.comicWalker, id)
    ensures r.Redirect? <==> provider == WebAce
    ensures r.Document? ==> WellFormed(r.feed)
  {
    match provider
    case Storia => Storia.Rss(env, web.storia, id)
    case GanganOnline => GanganOnline.Rss(env, web.ganganOnline, id)
    case UraSunday => UraSunday.Rss(env, web.uraSunday, id)
    case WebAce => WebAce.Rss(id)
    case ComicWalker => ComicWalker.Rss(env, web.comicWalker, id)
  }

  /** `Providers.find(site).new.rss(id)`: a feed, a redirect, or the exception raised on the way. */
  function FetchFeed(env: Env, web: Web, site: string, id: string): (r: Outcome)
    ensures site !in Providers() ==> r == Raised(KeyError(site))
    ensures r.Redirect? ==> Find(Providers(), site) == Success(WebAce)
    ensures r.Document? ==> WellFormed(r.feed)
  {
    match Find(Providers(), site)
    case Failure(e) => Raised(e)
    case Success(provider) => Rss(provider, env, web, id)
  }

  /** Every declared site runs the `rss` of the class that declared it, on that class's documents. */
  lemma DeclaredSiteRunsItsProvider(env: Env, web: Web, id: string)
    ensures forall i :: 0 <= i < |Declarations| ==>
              FetchFeed(env, web, Declarations[i].0, id) == Rss(Declarations[i].1, env, web, id)
    ensures FetchFeed(env, web, "storia.takeshobo.co.jp", id) == Storia.Rss(env, web.storia, id)
    ensures FetchFeed(env, web, "ganganonline.com", id) == GanganOnline.Rss(env, web.ganganOnline, id)
    ensures FetchFeed(env, web, "urasunday.com", id) == UraSunday.Rss(env, web.uraSunday, id)
    ensures FetchFeed(env, web, "web-ace.jp", id) == WebAce.Rss(id)
    ensures FetchFeed(env, web, "comic-walker.com", id) == ComicWalker.Rss(env, web.comicWalker, id)
  {
    FiveDistinctIds();
    assert Declarations[0] == ("storia.takeshobo.co.jp", Storia);
    assert Declarations[1] == ("ganganonline.com", GanganOnline);
    assert Declarations[2] == ("urasunday.com", UraSunday);
    assert Declarations[3] == ("web-ace.jp", WebAce);
    assert Declarations[4] == ("comic-walker.com", ComicWalker);
  }

  /** `web-ace.jp` always redirects, and what any fetch would return makes no difference. */
  lemma WebAceNeverFetches(env: Env, web1: Web, web2: Web, id: string)
    ensures FetchFeed(env, web1, "web-ace.jp", id).Redirect?
    ensures FetchFeed(env, web1, "web-ace.jp", id) == FetchFeed(env, web2, "web-ace.jp", id)
  {
    FindReturnsLastRegistration(map[], Declarations, "web-ace.jp");
    assert Declarations[4].0 != "web-ace.jp";
    assert LastDeclared(Declarations, "web-ace.jp") == Some(WebAce);
  }

  /** An unknown site raises `KeyError` without any provider being asked, whatever the web holds. */
  lemma UnknownSiteNeverFetches(env: Env, web1: Web, web2: Web, site: string, id: string)
    requires forall i :: 0 <= i < |Declarations| ==> Declarations[i].0 != site
    ensures FetchFeed(env, web1, site, id) == Raised(KeyError(site))
    ensures FetchFeed(env, web1, site, id) == FetchFeed(env, web2, site, id)
  {
    UnknownIdRaises(site);
  }
}

=== FILE: runtime.dfy ===
/**
 * What the Ruby runtime and the foreign libraries contribute to the feeds:
 * the exceptions the code can raise, parsed JSON values, Ruby's `nil`
 * handling, `Time` values, and the collaborators whose code is not part of
 * this model (relative-URI resolution, `Time.parse`, `Time.strptime`, the
 * local UTC offset and the HTTP fetch), passed in as total functions.
 */
module Runtime {
  import opened Wrappers
  import opened Text

  /** The exceptions the modelled code can raise. */
  datatype Error =
    | KeyError(key: string)        // `Hash#fetch` of a missing key
    | NoMethodError                // a method called on `nil`
    | TypeError                    // a non-String where a String is needed, as in `Time.parse(nil)`
    | ArgumentError                // text `Time.parse`/`strptime` cannot read; `uri + nil`; an out-of-range `Time.new`
    | RangeError                   // an Integer too wide for a C `int`, as a huge month given to `Time.new`
    | InvalidUriError              // an href the URI library refuses
    | RuntimeError(message: string)  // `fail '...'`
    | TransportError               // the HTTP request raised
    | ParserError                  // `JSON.parse` refused the body

  /** A key of a parsed JSON object: missing, present and null, or present with a value. */
  datatype Field<+T> = Absent | Null | Present(value: T)

  /** A JSON scalar as Ruby sees it after `JSON.parse`. */
  datatype Scalar = Bool(b: bool) | Number(n: int) | Str(s: string)

  /** `hash.fetch(key)`: raises `KeyError` for a missing key, gives `nil` for a null one. */
  function FetchKey<T>(f: Field<T>, key: string): (r: Result<Option<T>, Error>)
    ensures r.Failure? <==> f.Absent?
    ensures r.Failure? ==> r.error == KeyError(key)
    ensures r.Success? ==> (r.value.Some? <==> f.Present?)
    ensures r.Success? && f.Present? ==> r.value.value == f.value
    ensures r.Success? ==> r.value == Index(f)
  {
    match f
    case Absent => Failure(KeyError(key))
    case Null => Success(None)
    case Present(v) => Success(Some(v))
  }

  /** `hash[key]`: `nil` for a missing key and for a null one alike. */
  function Index<T>(f: Field<T>): Option<T> {
    if f.Present? then Some(f.value) else None
  }

  /** Ruby truthiness: everything except `nil` and `false`. */
  predicate Truthy(v: Option<Scalar>) {
    v.Some? && v.value != Bool(false)
  }

  /** `a || b`. */
  function Or(a: Option<Scalar>, b: Option<Scalar>): (r: Option<Scalar>)
    ensures Truthy(a) ==> r == a
    ensures !Truthy(a) ==> r == b
    ensures r == a || r == b
    ensures Truthy(r) <==> Truthy(a) || Truthy(b)
  {
    if Truthy(a) then a else b
  }

  /** `to_s` of a JSON scalar or `nil`; `nil.to_s` is the empty string. */
  function ToS(v: Option<Scalar>): string {
    match v
    case None => ""
    case Some(Bool(b)) => if b then "true" else "false"
    case Some(Number(n)) => IntegerString(n)
    case Some(Str(s)) => s
  }

  /** A `Time`: civil date and time of day at a UTC offset given in seconds. */
  datatype Time = Time(year: int, month: int, day: int, hour: int, minute: int, second: int, utcOffset: int)

  /** Midnight of a civil date at a UTC offset, as `Time.new(y, m, d)` builds it. */
  function Midnight(year: int, month: int, day: int, utcOffset: int): Time {
    Time(year, month, day, 0, 0, 0, utcOffset)
  }

  /** The bounds of a C `int`, the range Ruby's `NUM2INT` accepts. */
  const IntMin := -0x8000_0000
  const IntMax := 0x7fff_ffff

  /**
   * How `Time.new` reads a month or day argument (`obj2ubits`): `NUM2INT`
   * raises `RangeError` for a value outside a C `int`, and a value that does
   * not fit the field's `bits` unsigned bits (`limit` is 2^bits) raises
   * `ArgumentError`.
   */
  function UnsignedBits(v: int, limit: nat): (r: Result<int, Error>)
    requires limit <= IntMax
    ensures r.Success? <==> 0 <= v < limit
    ensures r.Success? ==> r.value == v
    ensures r.Failure? ==> (r.error == RangeError <==> v < IntMin || IntMax < v)
    ensures r.Failure? ==> r.error == RangeError || r.error == ArgumentError
  {
    if v < IntMin || IntMax < v then Failure(RangeError)
    else if v < 0 || limit <= v then Failure(ArgumentError)
    else Success(v)
  }

  /**
   * `Time.new(year, month, day)` at midnight. The month is read into 4 bits
   * and then the day into 5, each raising `RangeError` when outside a C `int`
   * and `ArgumentError` when too wide for its bits; a month outside 1..12 or
   * a day outside 1..31 then raises `ArgumentError`; any other triple gives
   * midnight of that civil date (days past the end of a shorter month are
   * kept as given).
   */
  function TimeNew(year: int, month: int, day: int, utcOffset: int): (r: Result<Time, Error>)
    ensures r.Success? <==> 1 <= month <= 12 && 1 <= day <= 31
    ensures r.Success? ==> r.value == Midnight(year, month, day, utcOffset)
    ensures r.Failure? ==> r.error == ArgumentError || r.error == RangeError
    ensures r == Failure(RangeError) <==>
      || month < IntMin || IntMax < month
      || (0 <= month < 16 && (day < IntMin || IntMax < day))
  {
    match UnsignedBits(month, 16)
    case Failure(e) => Failure(e)
    case Success(_) =>
      match UnsignedBits(day, 32)
      case Failure(e) => Failure(e)
      case Success(_) =>
        if 1 <= month <= 12 && 1 <= day <= 31 then Success(Midnight(year, month, day, utcOffset))
        else Failure(ArgumentError)
  }

  /** The result of one HTTP request: the parsed document, or the exception the request raised. */
  datatype Fetch<+T> = Fetched(doc: T) | FetchFailed(error: Error)

  /**
   * The collaborators whose code is not modelled. `resolve(base, href)` is
   * `base + href` (reference resolution, section 5.2 of RFC 3986), `None`
   * when the URI library refuses `href`; `parseTime` is `Time.parse`;
   * `strptime(text, format)` is `Time.strptime`; `localOffset` is the UTC
   * offset, one fixed value, that `Time.new` without an offset uses.
   */
  datatype Env = Env(
    resolve: (string, string) -> Option<string>,
    parseTime: string -> Option<Time>,
    strptime: (string, string) -> Option<Time>,
    localOffset: int)

  /** `base + href`, where `href` is an attribute that may be missing. */
  function ResolveHref(env: Env, base: string, href: Option<string>): (r: Result<string, Error>)
    ensures href.None? ==> r == Failure(ArgumentError)
    ensures href.Some? ==> (r.Success? <==> env.resolve(base, href.value).Some?)
    ensures r.Success? ==> href.Some? && env.resolve(base, href.value) == Some(r.value)
    ensures r.Failure? && href.Some? ==> r.error == InvalidUriError
  {
    match href
    case None => Failure(ArgumentError)
    case Some(h) =>
      match env.resolve(base, h)
      case None => Failure(InvalidUriError)
      case Some(uri) => Success(uri)
  }

  /** `Time.parse(v)`: only a String can be parsed, and unreadable text raises. */
  function TimeParse(env: Env, v: Option<Scalar>): (r: Result<Time, Error>)
    ensures r.Success? <==> v.Some? && v.value.Str? && env.parseTime(v.value.s).Some?
    ensures r.Success? ==> env.parseTime(v.value.s) == Some(r.value)
    ensures !(v.Some? && v.value.Str?) ==> r == Failure(TypeError)
  {
    match v
    case Some(Str(s)) =>
      (match env.parseTime(s)
       case None => Failure(ArgumentError)
       case Some(t) => Success(t))
    case _ => Failure(TypeError)
  }
}

=== FILE: storia.dfy ===
/**
 * The Storia provider (`storia.takeshobo.co.jp`): scrapes the manga's index
 * page. Every `.episode` node becomes an item unless it has no enclosing
 * `<a>` or its 公開日 cell holds no `N年 M月 D日` date; a date whose month
 * or day `Time.new` refuses raises.
 */
module Storia {
  import opened Wrappers
  import opened Text
  import opened Runtime
  import opened Feed
  import DateScan
  import FormEncoding

  /** The enclosing `<a>` of an episode node, with its `href` attribute if it has one. */
  datatype Anchor = Anchor(href: Option<string>)

  /**
   * One `.episode` node: its text, its nearest enclosing `<a>`, and the text
   * of the cell that follows the sibling cell reading 公開日 (empty when
   * there is none).
   */
  datatype Episode = Episode(text: string, anchor: Option<Anchor>, dateText: string)

  /** The index page: its `<title>`, the paragraphs after the ストーリー heading, the episode nodes. */
  datatype Page = Page(title: Option<string>, story: string, episodes: seq<Episode>)

  /** UTC offset of the dates Storia prints: +09:00. */
  const Jst: int := 9 * 3600

  function IndexUrl(id: string): string {
    "https://storia.takeshobo.co.jp/manga/" + FormEncoding.Encode(id) + "/"
  }

  /**
   * `extract_date`: `Time.new` at midnight, +09:00, of the year, month and day
   * of the first `N年 M月 D日` in the text (`ArgumentError` when the month or
   * day is out of range, `RangeError` when one is too wide for a C `int`),
   * or `nil` when the text has no such date.
   */
  function ExtractDate(s: string): (r: Option<Result<Time, Error>>)
    ensures r.None? <==> forall st, a, b, c, e, f :: !DateScan.KanjiMatch(s, st, a, b, c, e, f)
    ensures r.Some? ==> exists st, a, b, c, e, f ::
      && DateScan.KanjiMatch(s, st, a, b, c, e, f) && DateScan.NoKanjiMatchBefore(s, st)
      && AllDigits(s[st..a]) && AllDigits(s[b..c]) && AllDigits(s[e..f])
      && r.value == TimeNew(DecimalValue(s[st..a]), DecimalValue(s[b..c]), DecimalValue(s[e..f]), Jst)
  {
    match DateScan.MatchKanjiDate(s)
    case None => None
    case Some((y, m, d)) => Some(TimeNew(DecimalValue(y), DecimalValue(m), DecimalValue(d), Jst))
  }

  /** The two skip rules: the node has an enclosing link and a date in the text. */
  predicate Listed(ep: Episode) {
    ep.anchor.Some? && ExtractDate(ep.dateText).Some?
  }

  /**
   * One iteration over `.episode` nodes: the date is read before the link is
   * resolved, so an out-of-range date raises first.
   */
  function EpisodeStep(env: Env, index: string, ep: Episode): (st: Step)
    ensures st.Skip? <==> !Listed(ep)
    ensures st.Emit? ==> && PermaLinked(st.item)
                         && st.item.title == Some(Strip(ep.text))
                         && ExtractDate(ep.dateText) == Some(Success(st.item.date))
                         && ResolveHref(env, index, ep.anchor.value.href) == Success(st.item.link)
    ensures st.Abort? ==> || ExtractDate(ep.dateText) == Some(Failure(st.error))
                          || (&& ExtractDate(ep.dateText).Some? && ExtractDate(ep.dateText).value.Success?
                              && ResolveHref(env, index, ep.anchor.value.href) == Failure(st.error))
  {
    match ep.anchor
    case None => Skip
    case Some(a) =>
      match ExtractDate(ep.dateText)
      case None => Skip
      case Some(Failure(e)) => Abort(e)
      case Some(Success(date)) =>
        match ResolveHref(env, index, a.href)
        case Failure(e) => Abort(e)
        case Success(link) => Emit(NewItem(Some(Strip(ep.text)), link, date))
  }

  function Steps(env: Env, index: string, episodes: seq<Episode>): seq<Step> {
    StepsOf(ep => EpisodeStep(env, index, ep), episodes)
  }

  /** `Storia#rss(id)`. */
  function Rss(env: Env, fetch: string -> Fetch<Page>, id: string): (r: Outcome)
    ensures !r.Redirect?
    ensures fetch(IndexUrl(id)).FetchFailed? ==> r == Raised(fetch(IndexUrl(id)).error)
    ensures r.Document? ==>
      && fetch(IndexUrl(id)).Fetched?
      && var page := fetch(IndexUrl(id)).doc;
      && r.feed.channel == Channel(page.title, IndexUrl(id), Some(page.story))
      && WellFormed(r.feed)
      && Lists(Steps(env, IndexUrl(id), page.episodes), r.feed.items)
    ensures fetch(IndexUrl(id)).Fetched? ==>
      var steps := Steps(env, IndexUrl(id), fetch(IndexUrl(id)).doc.episodes);
      && (r.Document? || r.Raised?)
      && (r.Raised? <==> exists i :: 0 <= i < |steps| && steps[i].Abort?)
  {
    var index := IndexUrl(id);
    match fetch(index)
    case FetchFailed(e) => Raised(e)
    case Fetched(page) =>
      Make(Channel(page.title, index, Some(page.story)), Steps(env, index, page.episodes))
  }

  /**
   * A linked node that raises: `Time.new` refuses its date, or the date is
   * valid and its href cannot be resolved against the index page.
   */
  predicate NodeRaises(env: Env, index: string, ep: Episode) {
    && ep.anchor.Some? && ExtractDate(ep.dateText).Some?
    && (ExtractDate(ep.dateText).value.Failure? || ResolveHref(env, index, ep.anchor.value.href).Failure?)
  }

  /** A node's step raises exactly when the node raises. */
  lemma StepsRaiseOnRaisingNodes(env: Env, index: string, episodes: seq<Episode>)
    ensures forall i :: 0 <= i < |episodes| ==>
              (Steps(env, index, episodes)[i].Abort? <==> NodeRaises(env, index, episodes[i]))
  {
    var steps := Steps(env, index, episodes);
    forall i | 0 <= i < |episodes|
      ensures steps[i].Abort? <==> NodeRaises(env, index, episodes[i])
    {
      assert steps[i] == EpisodeStep(env, index, episodes[i]);
    }
  }

  /**
   * Once the index page is read, the feed fails exactly when some node
   * raises, and is built otherwise.
   */
  lemma BuiltUnlessNodeRaises(env: Env, fetch: string -> Fetch<Page>, id: string)
    requires fetch(IndexUrl(id)).Fetched?
    ensures var episodes := fetch(IndexUrl(id)).doc.episodes;
            && (Rss(env, fetch, id).Document? || Rss(env, fetch, id).Raised?)
            && (Rss(env, fetch, id).Raised? <==> exists i :: 0 <= i < |episodes| && NodeRaises(env, IndexUrl(id), episodes[i]))
  {
    StepsRaiseOnRaisingNodes(env, IndexUrl(id), fetch(IndexUrl(id)).doc.episodes);
  }

  /**
   * A skipped node does not stop the rest: when the feed is built, its items
   * are the listed nodes, one each, in page order, and nothing else.
   */
  lemma ItemsAreListedEpisodes(env: Env, fetch: string -> Fetch<Page>, id: string)
    requires Rss(env, fetch, id).Document?
    ensures var page := fetch(IndexUrl(id)).doc;
            var steps := Steps(env, IndexUrl(id), page.episodes);
            && (forall i :: 0 <= i < |page.episodes| ==> (steps[i].Emit? <==> Listed(page.episodes[i])))
            && |Rss(env, fetch, id).feed.items| == EmitCount(steps, |steps|)
  {
    var page := fetch(IndexUrl(id)).doc;
    var steps := Steps(env, IndexUrl(id), page.episodes);
    assert forall i :: 0 <= i < |steps| ==> !steps[i].Abort?;
  }

  /** A listed node with a valid date whose link cannot be resolved aborts the whole feed. */
  lemma UnresolvableLinkRaises(env: Env, fetch: string -> Fetch<Page>, id: string, i: int)
    requires fetch(IndexUrl(id)).Fetched?
    requires 0 <= i < |fetch(IndexUrl(id)).doc.episodes|
    requires var ep := fetch(IndexUrl(id)).doc.episodes[i];
             Listed(ep) && ExtractDate(ep.dateText).value.Success?
             && ResolveHref(env, IndexUrl(id), ep.anchor.value.href).Failure?
    ensures Rss(env, fetch, id).Raised?
  {
    var steps := Steps(env, IndexUrl(id), fetch(IndexUrl(id)).doc.episodes);
    assert steps[i].Abort?;
  }

  /** A linked node whose date has a month or day `Time.new` refuses aborts the whole feed. */
  lemma OutOfRangeDateRaises(env: Env, fetch: string -> Fetch<Page>, id: string, i: int)
    requires fetch(IndexUrl(id)).Fetched?
    requires 0 <= i < |fetch(IndexUrl(id)).doc.episodes|
    requires var ep := fetch(IndexUrl(id)).doc.episodes[i];
             ep.anchor.Some? && ExtractDate(ep.dateText).Some? && ExtractDate(ep.dateText).value.Failure?
    ensures Rss(env, fetch, id).Raised?
  {
    var steps := Steps(env, IndexUrl(id), fetch(IndexUrl(id)).doc.episodes);
    assert steps[i].Abort?;
  }
}

=== FILE: text.dfy ===
/**
 * The parts of Ruby's String semantics the feeds rely on: the ASCII-only
 * regular-expression classes `\d` and `\s`, `String#strip`, `Array#join`,
 * `Array#compact`, `String#to_i` on a digit run and `Integer#to_s`.
 */
module Text {
  import opened Wrappers

  /** Ruby's `\d`: ASCII digits only. */
  predicate IsDigit(c: char) {
    '0' <= c <= '9'
  }

  /** Ruby's `\s`: space, tab, line feed, vertical tab, form feed, carriage return. */
  predicate IsSpace(c: char) {
    c == ' ' || c == '\t' || c == '\n' || c == '\U{000B}' || c == '\U{000C}' || c == '\r'
  }

  /** The characters `String#strip` removes: `\s` and NUL. */
  predicate IsStripSpace(c: char) {
    IsSpace(c) || c == '\U{0000}'
  }

  predicate AllDigits(s: string) {
    forall k :: 0 <= k < |s| ==> IsDigit(s[k])
  }

  function DigitValue(c: char): (d: nat)
    requires IsDigit(c)
    ensures d < 10
  {
    c as int - '0' as int
  }

  function DigitChar(d: nat): (c: char)
    requires d < 10
    ensures IsDigit(c) && DigitValue(c) == d
  {
    ('0' as int + d) as char
  }

  /** `String#to_i` of a string made of ASCII digits only: its decimal value. */
  function DecimalValue(s: string): nat
    requires AllDigits(s)
  {
    if |s| == 0 then 0 else 10 * DecimalValue(s[..|s| - 1]) + DigitValue(s[|s| - 1])
  }

  /** `Integer#to_s` of a natural number. */
  function DecimalString(n: nat): (s: string)
    ensures |s| > 0 && AllDigits(s)
    ensures s[0] == '0' <==> n == 0
    ensures |s| == 1 || s[0] != '0'
  {
    if n < 10 then [DigitChar(n)] else DecimalString(n / 10) + [DigitChar(n % 10)]
  }

  /** Reading back what `to_s` wrote gives the number again. */
  lemma {:induction false} DecimalRoundTrip(n: nat)
    ensures DecimalValue(DecimalString(n)) == n
  {
    if n >= 10 {
      var s := DecimalString(n);
      assert s[..|s| - 1] == DecimalString(n / 10);
      DecimalRoundTrip(n / 10);
    }
  }

  /** `Integer#to_s` of any integer: a minus sign before the digits of a negative one. */
  function IntegerString(n: int): (s: string)
    ensures n >= 0 ==> |s| > 0 && AllDigits(s) && DecimalValue(s) == n
    ensures n >= 0 ==> |s| == 1 || s[0] != '0'
    ensures n < 0 ==> |s| > 1 && s[0] == '-' && AllDigits(s[1..]) && DecimalValue(s[1..]) == -n
    ensures n < 0 ==> s[1] != '0'
  {
    if n >= 0 then
      DecimalRoundTrip(n);
      DecimalString(n)
    else
      DecimalRoundTrip(-n);
      assert ("-" + DecimalString(-n))[1..] == DecimalString(-n);
      "-" + DecimalString(-n)
  }

  /** Index of the first character `strip` keeps, or `|s|` when it keeps none. */
  function LeadingSpaceEnd(s: string, i: nat): (k: nat)
    requires i <= |s|
    requires forall j :: 0 <= j < i ==> IsStripSpace(s[j])
    ensures i <= k <= |s|
    ensures forall j :: 0 <= j < k ==> IsStripSpace(s[j])
    ensures k == |s| || !IsStripSpace(s[k])
    decreases |s| - i
  {
    if i < |s| && IsStripSpace(s[i]) then LeadingSpaceEnd(s, i + 1) else i
  }

  /** One past the last character `strip` keeps, searching down from `i`. */
  function TrailingSpaceStart(s: string, i: nat): (k: nat)
    requires i <= |s|
    requires forall j :: i <= j < |s| ==> IsStripSpace(s[j])
    ensures k <= i
    ensures forall j :: k <= j < |s| ==> IsStripSpace(s[j])
    ensures k == 0 || !IsStripSpace(s[k - 1])
  {
    if i > 0 && IsStripSpace(s[i - 1]) then TrailingSpaceStart(s, i - 1) else i
  }

  /**
   * `String#strip`: the slice left after removing every leading and every
   * trailing strip-space character.
   */
  function Strip(s: string): (r: string)
    ensures |r| > 0 ==> !IsStripSpace(r[0]) && !IsStripSpace(r[|r| - 1])
    ensures |r| == 0 ==> forall j :: 0 <= j < |s| ==> IsStripSpace(s[j])
    ensures exists lo :: SliceAmidSpace(s, lo, r)
  {
    var lo := LeadingSpaceEnd(s, 0);
    if lo == |s| then
      assert SliceAmidSpace(s, lo, []);
      []
    else
      var hi := TrailingSpaceStart(s, |s|);
      assert lo < hi;
      assert SliceAmidSpace(s, lo, s[lo..hi]);
      s[lo..hi]
  }

  /** `r` occurs in `s` at `lo`, and every character of `s` around it is one `strip` removes. */
  predicate SliceAmidSpace(s: string, lo: nat, r: string) {
    && lo + |r| <= |s|
    && s[lo..lo + |r|] == r
    && (forall j :: 0 <= j < lo ==> IsStripSpace(s[j]))
    && (forall j :: lo + |r| <= j < |s| ==> IsStripSpace(s[j]))
  }

  /** Stripping twice removes nothing more. */
  lemma StripIdempotent(s: string)
    ensures Strip(Strip(s)) == Strip(s)
  {
    var r := Strip(s);
    if |r| > 0 {
      var lo := LeadingSpaceEnd(r, 0);
      assert lo == 0;
      var hi := TrailingSpaceStart(r, |r|);
      assert hi == |r|;
    }
  }

  /** `Array#compact`: the array without its nils, in order. */
  function Compact(xs: seq<Option<string>>): (r: seq<string>)
    ensures |r| <= |xs|
  {
    if |xs| == 0 then []
    else match xs[0]
      case None => Compact(xs[1..])
      case Some(x) => [x] + Compact(xs[1..])
  }

  /** `Array#join(' ')`: the parts with one space between neighbours. */
  function JoinWithSpace(parts: seq<string>): (r: string)
    ensures |parts| == 1 ==> r == parts[0]
    ensures |parts| == 2 ==> r == parts[0] + " " + parts[1]
  {
    if |parts| == 0 then ""
    else if |parts| == 1 then parts[0]
    else parts[0] + " " + JoinWithSpace(parts[1..])
  }
}

=== FILE: ura_sunday.dfy ===
/**
 * The UraSunday provider (`urasunday.com`): scrapes the title page's chapter
 * list. It is strict: an entry whose link does not hold exactly three
 * qualifying `<div>`s raises, and so does the whole feed.
 */
module UraSunday {
  import opened Wrappers
  import opened Text
  import opened Runtime
  import opened Feed
  import FormEncoding

  /** A `div > div` element inside an entry's link, and whether it carries class `new`. */
  datatype Div = Div(text: string, isNew: bool)

  /** The first `<a>` of an entry: its `href` attribute if any, and its `div > div` elements in order. */
  datatype Link = Link(href: Option<string>, divs: seq<Div>)

  /** A `.chapter li` element: whether it carries class `charge`, and its first `<a>` if any. */
  datatype Entry = Entry(charge: bool, link: Option<Link>)

  /** The `<meta name="description">` element, with its `content` attribute if any. */
  datatype Meta = Meta(content: Option<string>)

  datatype Page = Page(title: Option<string>, meta: Option<Meta>, entries: seq<Entry>)

  const StructureMessage: string := "Unexptected HTML structure"

  /** The `strptime` format the date cell is read with, after ` +0900` is appended to it. */
  const DateFormat: string := "%Y/%m/%d %z"

  function IndexUrl(id: string): string {
    "https://urasunday.com/title/" + FormEncoding.Encode(id)
  }

  /** `div > div:not(.new)`: the divs without class `new`, in document order. */
  function Qualifying(divs: seq<Div>): (r: seq<Div>)
    ensures |r| <= |divs|
    ensures forall k :: 0 <= k < |r| ==> !r[k].isNew && r[k] in divs
    ensures forall k :: 0 <= k < |divs| && !divs[k].isNew ==> divs[k] in r
    ensures |divs| == 0 ==> r == []
    ensures |divs| == 1 ==> r == (if divs[0].isNew then [] else divs)
  {
    if |divs| == 0 then []
    else if divs[0].isNew then Qualifying(divs[1..])
    else [divs[0]] + Qualifying(divs[1..])
  }

  /**
   * Selection distributes over concatenation: with the one-div cases above,
   * the qualifying divs are the non-`new` ones in document order, each as
   * often as it occurs.
   */
  lemma {:induction false} QualifyingConcat(a: seq<Div>, b: seq<Div>)
    ensures Qualifying(a + b) == Qualifying(a) + Qualifying(b)
  {
    if |a| == 0 {
      assert a + b == b;
    } else {
      assert (a + b)[1..] == a[1..] + b;
      QualifyingConcat(a[1..], b);
    }
  }

  /** The entry's link has exactly the three qualifying divs the provider expects. */
  predicate WellShaped(link: Link) {
    |Qualifying(link.divs)| == 3
  }

  /** The text `strptime` reads the date from: the third qualifying div with ` +0900` appended. */
  function DateCell(link: Link): string
    requires WellShaped(link)
  {
    Qualifying(link.divs)[2].text + " +0900"
  }

  /**
   * One iteration over `.chapter li:not(.charge)`; `charge` entries are the
   * ones the selector leaves out. Every other entry raises or gives an item.
   */
  function EntryStep(env: Env, index: string, entry: Entry): (st: Step)
    ensures st.Skip? <==> entry.charge
    ensures !entry.charge && entry.link.None? ==> st == Abort(NoMethodError)
    ensures !entry.charge && entry.link.Some? && !WellShaped(entry.link.value) ==>
              st == Abort(RuntimeError(StructureMessage))
    ensures !entry.charge && entry.link.Some? && WellShaped(entry.link.value) ==>
      var date := env.strptime(DateCell(entry.link.value), DateFormat);
      var link := ResolveHref(env, index, entry.link.value.href);
      && (date.None? ==> st == Abort(ArgumentError))
      && (date.Some? && link.Failure? ==> st == Abort(link.error))
      && (date.Some? && link.Success? ==> st.Emit?)
    ensures st.Emit? ==>
      && entry.link.Some? && WellShaped(entry.link.value)
      && var divs := Qualifying(entry.link.value.divs);
      && PermaLinked(st.item)
      && st.item.title == Some(divs[0].text + " " + divs[1].text)
      && env.strptime(DateCell(entry.link.value), DateFormat) == Some(st.item.date)
      && ResolveHref(env, index, entry.link.value.href) == Success(st.item.link)
  {
    if entry.charge then Skip
    else match entry.link
      case None => Abort(NoMethodError)
      case Some(link) =>
        var divs := Qualifying(link.divs);
        if |divs| != 3 then Abort(RuntimeError(StructureMessage))
        else match env.strptime(DateCell(link), DateFormat)
          case None => Abort(ArgumentError)
          case Some(time) =>
            var title := JoinWithSpace([divs[0].text, divs[1].text]);
            match ResolveHref(env, index, link.href)
            case Failure(e) => Abort(e)
            case Success(uri) => Emit(NewItem(Some(title), uri, time))
  }

  /**
   * An entry outside `charge` that raises: it has no link, its link is not
   * well shaped, `strptime` cannot read its date, or its href cannot be
   * resolved against the title page.
   */
  predicate EntryRaises(env: Env, index: string, entry: Entry) {
    && !entry.charge
    && (|| entry.link.None?
        || !WellShaped(entry.link.value)
        || env.strptime(DateCell(entry.link.value), DateFormat).None?
        || ResolveHref(env, index, entry.link.value.href).Failure?)
  }

  function Steps(env: Env, index: string, entries: seq<Entry>): seq<Step> {
    StepsOf(entry => EntryStep(env, index, entry), entries)
  }

  /** `UraSunday#rss(id)`. */
  function Rss(env: Env, fetch: string -> Fetch<Page>, id: string): (r: Outcome)
    ensures !r.Redirect?
    ensures fetch(IndexUrl(id)).FetchFailed? ==> r == Raised(fetch(IndexUrl(id)).error)
    ensures fetch(IndexUrl(id)).Fetched? && fetch(IndexUrl(id)).doc.meta.None? ==> r == Raised(NoMethodError)
    ensures r.Document? ==>
      && fetch(IndexUrl(id)).Fetched?
      && var page := fetch(IndexUrl(id)).doc;
      && page.meta.Some?
      && r.feed.channel == Channel(page.title, IndexUrl(id), page.meta.value.content)
      && WellFormed(r.feed)
      && Lists(Steps(env, IndexUrl(id), page.entries), r.feed.items)
    ensures fetch(IndexUrl(id)).Fetched? && fetch(IndexUrl(id)).doc.meta.Some? ==>
      var steps := Steps(env, IndexUrl(id), fetch(IndexUrl(id)).doc.entries);
      && (r.Document? || r.Raised?)
      && (r.Raised? <==> exists i :: 0 <= i < |steps| && steps[i].Abort?)
  {
    var index := IndexUrl(id);
    match fetch(index)
    case FetchFailed(e) => Raised(e)
    case Fetched(page) =>
      match page.meta
      case None => Raised(NoMethodError)
      case Some(meta) => Make(Channel(page.title, index, meta.content), Steps(env, index, page.entries))
  }

  /** An entry's step raises exactly when the entry raises. */
  lemma StepsRaiseOnRaisingEntries(env: Env, index: string, entries: seq<Entry>)
    ensures forall i :: 0 <= i < |entries| ==>
              (Steps(env, index, entries)[i].Abort? <==> EntryRaises(env, index, entries[i]))
  {
    var steps := Steps(env, index, entries);
    forall i | 0 <= i < |entries|
      ensures steps[i].Abort? <==> EntryRaises(env, index, entries[i])
    {
      assert steps[i] == EntryStep(env, index, entries[i]);
    }
  }

  /**
   * Once the title page and its description are read, the feed fails exactly
   * when some entry raises, and is built otherwise.
   */
  lemma BuiltUnlessEntryRaises(env: Env, fetch: string -> Fetch<Page>, id: string)
    requires fetch(IndexUrl(id)).Fetched? && fetch(IndexUrl(id)).doc.meta.Some?
    ensures var entries := fetch(IndexUrl(id)).doc.entries;
            && (Rss(env, fetch, id).Document? || Rss(env, fetch, id).Raised?)
            && (Rss(env, fetch, id).Raised? <==> exists i :: 0 <= i < |entries| && EntryRaises(env, IndexUrl(id), entries[i]))
  {
    StepsRaiseOnRaisingEntries(env, IndexUrl(id), fetch(IndexUrl(id)).doc.entries);
  }

  /** One entry outside `charge` whose link does not hold exactly three qualifying divs fails the whole feed. */
  lemma MisshapenEntryFailsFeed(env: Env, fetch: string -> Fetch<Page>, id: string, i: int)
    requires fetch(IndexUrl(id)).Fetched? && fetch(IndexUrl(id)).doc.meta.Some?
    requires 0 <= i < |fetch(IndexUrl(id)).doc.entries|
    requires var entry := fetch(IndexUrl(id)).doc.entries[i];
             !entry.charge && entry.link.Some? && !WellShaped(entry.link.value)
    ensures Rss(env, fetch, id).Raised?
  {
    var steps := Steps(env, IndexUrl(id), fetch(IndexUrl(id)).doc.entries);
    assert steps[i].Abort?;
  }

  /**
   * There is no partial result: when the feed is built, every entry outside
   * `charge` is well shaped and gave an item, one per entry, in page order.
   */
  lemma NoPartialFeed(env: Env, fetch: string -> Fetch<Page>, id: string)
    requires Rss(env, fetch, id).Document?
    ensures var entries := fetch(IndexUrl(id)).doc.entries;
            var steps := Steps(env, IndexUrl(id), entries);
            && (forall i :: 0 <= i < |entries| && !entries[i].charge ==>
                  entries[i].link.Some? && WellShaped(entries[i].link.value) && steps[i].Emit?)
            && |Rss(env, fetch, id).feed.items| == EmitCount(steps, |steps|)
  {
    var entries := fetch(IndexUrl(id)).doc.entries;
    var steps := Steps(env, IndexUrl(id), entries);
    assert forall i :: 0 <= i < |steps| ==> !steps[i].Abort?;
  }
}

=== FILE: web_ace.dfy ===
/**
 * The WebAce provider (`web-ace.jp`): fetches nothing. Its id is
 * `<section>:<work id>`, and it always answers with a redirect to the
 * feed the site publishes for that section and work.
 */
module WebAce {
  import opened Wrappers
  import opened Runtime
  import opened Feed
  import FormEncoding

  /** The first `:` of `s` is at `k`. */
  predicate FirstColonAt(s: string, k: int) {
    0 <= k < |s| && s[k] == ':' && forall j :: 0 <= j < k ==> s[j] != ':'
  }

  /** The position of the first `:` at or after `i`, if any. */
  function FindColon(s: string, i: nat): (r: Option<nat>)
    requires i <= |s|
    requires forall j :: 0 <= j < i ==> s[j] != ':'
    ensures r.Some? ==> FirstColonAt(s, r.value)
    ensures r.None? ==> ':' !in s
    decreases |s| - i
  {
    if i == |s| then None
    else if s[i] == ':' then Some(i)
    else FindColon(s, i + 1)
  }

  /**
   * `s.split(':', 2)` destructured into two variables: an empty string
   * splits into no fields (both `nil`), a string without `:` into itself
   * and `nil`, any other string at its first `:` only.
   */
  function SplitOnce(s: string): (r: (Option<string>, Option<string>))
    ensures s == [] ==> r == (None, None)
    ensures s != [] && ':' !in s ==> r == (Some(s), None)
    ensures forall k :: FirstColonAt(s, k) ==> r == (Some(s[..k]), Some(s[k + 1..]))
  {
    if s == [] then (None, None)
    else match FindColon(s, 0)
      case None => (Some(s), None)
      case Some(k) => (Some(s[..k]), Some(s[k + 1..]))
  }

  /** Gluing the two fields back with `:` gives the id again. */
  lemma {:induction false} SplitOnceRejoins(s: string)
    requires ':' in s
    ensures SplitOnce(s).0.Some? && SplitOnce(s).1.Some?
    ensures SplitOnce(s).0.value + ":" + SplitOnce(s).1.value == s
    ensures ':' !in SplitOnce(s).0.value
  {
    var k := FindColon(s, 0).value;
    assert FirstColonAt(s, k);
    assert s[..k] + ":" + s[k + 1..] == s;
  }

  /** Splitting `sub:rest` recovers `sub` and `rest` whenever `sub` has no `:`, whatever `rest` holds. */
  lemma {:induction false} SplitOnceOfJoined(sub: string, rest: string)
    requires ':' !in sub
    ensures SplitOnce(sub + ":" + rest) == (Some(sub), Some(rest))
  {
    var s := sub + ":" + rest;
    assert FirstColonAt(s, |sub|);
    assert s[..|sub|] == sub && s[|sub| + 1..] == rest;
  }

  /** `u(part)`, where a missing field is `nil` and `u(nil)` encodes the empty string. */
  function Segment(part: Option<string>): string {
    FormEncoding.Encode(ToS(if part.Some? then Some(Str(part.value)) else None))
  }

  function FeedUrl(section: string, work: string): string {
    "https://web-ace.jp/" + section + "/feed/rss/" + work + "/"
  }

  /** `WebAce#rss(id)`: raises `Redirect` to the section's own feed for the work. */
  function Rss(id: string): (r: Outcome)
    ensures r.Redirect?
    ensures forall k :: FirstColonAt(id, k) ==>
              r.target == FeedUrl(FormEncoding.Encode(id[..k]), FormEncoding.Encode(id[k + 1..]))
    ensures ':' !in id ==> r.target == FeedUrl(FormEncoding.Encode(id), "")
  {
    var (section, work) := SplitOnce(id);
    Redirect(FeedUrl(Segment(section), Segment(work)))
  }
}

=== FILE: wrappers.dfy ===
/** Failure-compatible wrappers shared by every module of the model. */
module Wrappers {

  /** Ruby's `nil` or a value. */
  datatype Option<+T> = None | Some(value: T)

  /** A computed value, or the exception the computation raised. */
  datatype Result<+T, +E> = Success(value: T) | Failure(error: E)
}
